=== FILE: README.md ===
# super_snake game core in Dafny

This project models the game package of super_snake, a grid snake game: the session engine of
`internal/game/game.go` and the A* pathfinder of `internal/game/astar.go`.

**Session engine.** The `Session.Game` class holds:
- the player snake and the enemy snakes;
- the food items;
- the score, the game-over and pause flags, and the spawn schedule;
- the "food eaten" flash markers.

A frame update does three things:
- it spawns food and enemies when they are due;
- it drains each snake's movement progress one grid step at a time;
- after each step it checks the walls, the snake itself and the other snakes.

**Snakes.** A snake (`Snakes.Snake`) is an object whose body, previous body, directions, speed multiplier, speed timer and progress change in place. Food items are values (`Foods.Food`), and their kind decides their effect. Enemy steering is the greedy rule of `updateEnemyAI` (`Steering`).

**Pathfinder.** The node objects and the open-set priority queue are in `PathQueue`. `AStar.FindPath` is the search itself, over node objects that the queue and the node map share. Its contract is proved through the search invariant of `AStarTheory`:
- a path it returns is a shortest route that avoids the obstacles;
- when it returns no path, the target is unreachable.

**Conventions.**
- Time is an integer count of nanoseconds. The clock is a `now` parameter.
- Random draws are arbitrary choices, so every contract holds for every outcome.
- `float64` quantities (speed, multipliers, progress) are `real`.

## Model

| member | source | states |
|---|---|---|
| Grid.IsValid | internal/game/astar.go:81-83 | only a non-empty grid has valid cells, and a valid cell is at most width + height - 2 steps from the corner |
| Grid.Heuristic | internal/game/astar.go:68-78 | the Manhattan distance is non-negative and zero exactly when the two cells are equal |
| Grid.HeuristicSymmetric | internal/game/astar.go:68-78 | the heuristic is symmetric |
| Grid.HeuristicStep | internal/game/astar.go:68-78 | one grid step changes the heuristic by at most one (it is consistent, which A* optimality needs) |
| Grid.OffsetIndex | internal/game/astar.go:115 | every 4-neighbour of a cell is reached by one of the four neighbour offsets |
| Grid.OffsetIsAdjacent | internal/game/astar.go:115 | every neighbour offset leads to a 4-neighbour |
| Grid.ShiftAdjacent | internal/game/game.go:490-502 | a step in a real direction moves the head to a 4-neighbour; DirNone leaves it in place |
| Grid.ReverseShiftsBack | internal/game/game.go:697-714 | a direction rejected as a reversal would lead straight back onto the previous cell |
| Steering.EnemyDesiredDir | internal/game/game.go:412-460 | the chosen direction equals the greedy reference rule and never reverses the committed direction |
| Steering.EnemyApproachesWhenPossible | internal/game/game.go:409-465 | the chosen direction approaches the first food item exactly when some non-reversing direction does; otherwise the snake keeps its direction |
| Snakes.ScanBody | internal/game/game.go:354-358 | the scan reports a hit exactly when the head lies on a segment at index 1 or later |
| Snakes.Snake.constructor | internal/game/game.go:122-131 | a new snake's previous body equals its body, and it has no speed effect and zero progress |
| Snakes.Snake.Grow | internal/game/game.go:310-324 | the tail segment is duplicated in Body and PrevBody, PrevBody falling back to Body's tail when empty; an empty body is untouched |
| Snakes.Snake.ApplySpeedBoost | internal/game/game.go:327-339 | installs the multiplier, sets the end time to now + duration and replaces any running timer by one due then |
| Snakes.Snake.SpeedTimerFires | internal/game/game.go:334-338 | an armed timer that is due restores multiplier 1 and clears the timer and end time; otherwise nothing changes |
| Snakes.Snake.CheckCollision | internal/game/game.go:343-362 | a wall hit exactly when the head is outside the grid; a self hit exactly when it is inside and on another segment; never both; neither for an empty body |
| Snakes.StandStillHitsSelf | internal/game/game.go:697-717 | a step committed with DirNone, which HandleInput accepts, is a self collision for any body of two or more segments |
| Foods.FoodTypeFor | internal/game/game.go:256-261 | a uniform draw in [0, 1) selects the kind whose interval contains it |
| Foods.DrawIntervalsTile | internal/game/game.go:256-261 | the three kinds' intervals tile [0, 1) with shares of 15%, 15% and 70% |
| Foods.ApplyEffect | internal/game/game.go:262-274 | every kind grows the eater; SpeedUp and SlowDown also install 1.5 and 0.6 for seven seconds; Standard leaves the speed state alone |
| Foods.FirstFoodAt | internal/game/game.go:505-508 | the index of the first item on the cell, or -1 exactly when no item lies there |
| Foods.RemoveAt | internal/game/game.go:541 | removing one index keeps the other items in their order |
| EnemyList.RemoveAllMembers | internal/game/game.go:651-662 | an enemy stays in the list exactly when it was there and is not the one removed |
| EnemyList.RemoveAllDistinct | internal/game/game.go:651-662 | removal keeps the enemy list free of duplicates |
| EnemyList.RemoveAllAt | internal/game/game.go:651-662 | in a duplicate-free list, removing an enemy removes exactly its one index |
| EnemyList.RemoveAllAbsent | internal/game/game.go:651-662 | removing an enemy that is not listed changes nothing |
| EnemyList.HeadOnAtLastIndexOverruns | internal/game/game.go:394-403 | when the last enemy meets an earlier one head-on, the loop's next index is past the end of the shortened list |
| EnemyList.HeadOnEarlierRepeatsTurn | internal/game/game.go:394-403 | when a non-last enemy meets an earlier one head-on, the loop's next index holds an enemy that has already moved this frame |
| EnemyList.TwoEnemiesHeadOnOverrun | internal/game/game.go:394-403 | with two enemies, the second meeting the first head-on makes the next read go out of range |
| PathQueue.AStarNode.constructor | internal/game/astar.go:138-141 | a node literal naming only pos and parent has zero costs and slot |
| PathQueue.KeyLessStrictOrder | internal/game/astar.go:26-32 | the queue order (f, then h) is a strict order; incomparable nodes have equal f and h |
| PathQueue.PriorityQueue.Len | internal/game/astar.go:24 | the length is non-negative and zero exactly when the queue is empty |
| PathQueue.PriorityQueue.Less | internal/game/astar.go:26-32 | the slot order is strict: no slot precedes itself and no two slots precede each other |
| PathQueue.PriorityQueue.constructor | internal/game/astar.go:103-104 | the open set starts empty and indexed |
| PathQueue.PriorityQueue.Swap | internal/game/astar.go:34-38 | exchanges two slots and records each node's new slot, without changing any cost |
| PathQueue.PriorityQueue.Push | internal/game/astar.go:40-45 | appends the node and records its slot |
| PathQueue.PriorityQueue.Pop | internal/game/astar.go:47-55 | removes the last slot and marks the node with index -1 |
| PathQueue.PriorityQueue.Update | internal/game/astar.go:58-63 | installs g, h and f = g + h on the node, keeping its parent and slot |
| PathQueue.PriorityQueue.MinIndex | internal/game/astar.go:26-32 | a slot that no queued node precedes |
| PathQueue.PriorityQueue.MinToLast | internal/game/astar.go:118 | moves a minimal node to the last slot, permuting the queue and keeping every slot record |
| PathQueue.PriorityQueue.HeapPop | internal/game/astar.go:118 | removes and returns a node no remaining node precedes; the rest of the queue is unchanged as a multiset |
| AStar.ReconstructPath | internal/game/astar.go:87-99 | the result is the chain of positions from the start node's child to the target node, in travel order, start excluded |
| AStar.ChainMatches | internal/game/astar.go:87-99 | the node objects' parent chain is the ghost parent map's chain |
| AStar.CoupledAdd | internal/game/astar.go:138-147 | a new node costed and parented like the ghost maps extends the node-map coupling |
| AStar.QueueMatchesAdd | internal/game/astar.go:142-143 | a new node pushed and mapped keeps the open set equal to the discovered, unexpanded nodes |
| AStar.InsertNode | internal/game/astar.go:137-148 | a newly discovered neighbour gets a fresh node with cost tentativeG and parent current, queued and mapped |
| AStar.ImproveNode | internal/game/astar.go:149-152 | a better route re-parents the open node and lowers its cost, keeping map and queue consistent |
| AStar.RelaxNeighbor | internal/game/astar.go:127-153 | visiting one neighbour has exactly the effect of Relax on costs and parents: skipped when out of bounds, an obstacle or closed; lowered only when strictly better |
| AStar.VisitOffset | internal/game/astar.go:126-153 | one pass of the offsets loop extends the relaxation invariant by one neighbour |
| AStar.ExpandNode | internal/game/astar.go:126-154 | after the offsets loop, the expanded cell is fully relaxed and the search invariant holds |
| AStar.PopBest | internal/game/astar.go:118 | the popped node is discovered, not yet expanded, and has minimal g + h among the open nodes |
| AStar.Arrive | internal/game/astar.go:120-121 | a popped target's reconstructed path is a shortest route |
| AStar.CloseAndExpand | internal/game/astar.go:124-154 | closing the popped non-target cell and expanding it keeps the search invariant |
| AStar.SearchStep | internal/game/astar.go:117-154 | one loop iteration either returns a shortest route or closes a new cell and keeps the invariant |
| AStar.NewSearch | internal/game/astar.go:103-112 | the open set and node map hold only the start node, with cost 0 |
| AStar.FindPath | internal/game/astar.go:101-158 | a returned path is a shortest obstacle-free 4-connected route from start to target; nil means no route exists |
| AStarTheory.PathAtLeastManhattan | internal/game/astar.go:68-78 | no route is shorter than the Manhattan distance to its end |
| AStarTheory.WalkIsPath | internal/game/astar.go:134 | on an obstacle-free grid, a route of exactly Manhattan length joins any two in-bounds cells |
| AStarTheory.InitialInv | internal/game/astar.go:109-112 | the state right after the start node is pushed satisfies the search invariant |
| AStarTheory.RelaxKeepsInv | internal/game/astar.go:127-153 | relaxing the next neighbour of the expanded cell extends the invariant by one neighbour |
| AStarTheory.LowerKeepsInv | internal/game/astar.go:134-152 | lowering a neighbour's cost to current.g + 1 keeps the invariant |
| AStarTheory.RelaxKeepsCore | internal/game/astar.go:134-152 | a lowered cost still leaves every closed cell at its shortest distance |
| AStarTheory.CloseKeepsInv | internal/game/astar.go:124 | closing an optimally reached cell keeps the invariant |
| AStarTheory.ClosedIsRelaxed | internal/game/astar.go:124-154 | every expanded cell has had all four neighbours relaxed |
| AStarTheory.PoppedIsOptimal | internal/game/astar.go:117-118 | the open cell of minimal g + h is reached by a shortest route (consistent heuristic, unit edges) |
| AStarTheory.ExhaustedCoversRoutes | internal/game/astar.go:117 | when no cell is open, every route ends in an expanded cell |
| AStarTheory.ExhaustedMeansUnreachable | internal/game/astar.go:157 | an empty open set without the target popped means the target is unreachable |
| AStarTheory.DiscoveredInUniverse | internal/game/astar.go:130 | only in-bounds cells (and the start) are ever discovered, so the search terminates |
| AStarTheory.ChainPathIsRoute | internal/game/astar.go:87-99 | the parent chain of a discovered cell is a route to it of length exactly its cost |
| AStarTheory.FoundIsShortest | internal/game/astar.go:120-121 | when the target is the popped minimum, its parent chain is a shortest route |
| AStarTheory.ResultToSelf | internal/game/astar.go:120-121 | a search from a cell to itself returns the empty path |
| AStarTheory.ResultBlockedTarget | internal/game/astar.go:130 | a distinct target that is out of bounds or an obstacle gives nil |
| AStarTheory.ResultUnobstructed | internal/game/astar.go:68-78 | without obstacles, between in-bounds cells, the path has exactly Manhattan length |
| Session.PlayerStartOk | internal/game/game.go:113-131 | the player's start body lies on the grid, is connected and self-disjoint, and its first rightward step is a free cell inside the grid |
| Session.EnemyBodyOk | internal/game/game.go:170-193 | an enemy's start body is connected and self-disjoint with its first leftward step off the body, and it lies on the grid exactly when the start cell passes the placement bounds check |
| Session.EnemyCellsMembers | internal/game/game.go:236-242 | a cell is outside the enemy occupancy exactly when no enemy body covers it |
| Session.MarkCells | internal/game/game.go:117-121 | marking a body adds exactly its cells to the occupancy set |
| Session.CreateEnemy | internal/game/game.go:164-210 | any enemy returned is fresh, faces left, lies in the right quarter of the grid, in bounds and off every occupied cell |
| Session.CreateInitialEnemies | internal/game/game.go:134-143 | at most two enemies, distinct, each off the player and off the enemies placed before it |
| Session.PlacedExtend | internal/game/game.go:137-141 | appending a well-placed enemy extends the placement property and the occupancy set |
| Session.AddEnemy | internal/game/game.go:135-142 | one creation attempt appends at most one enemy and keeps the occupancy set equal to the snakes' cells |
| Session.Enlist | internal/game/game.go:137-141 | appending a placed enemy and marking its cells keeps the placement invariant |
| Session.FirstEnemyHit | internal/game/game.go:613-646 | the first enemy, in list order, whose head or body the snake's head meets, or -1 exactly when there is none |
| Session.ResumeDelayValues | internal/game/game.go:686 | on resume, the timer fires 125 ms, 83.3 ms or 250 ms later for multiplier 1, 1.5 or 0.6, well before the seven-second effect ends |
| Session.Game.FreeCell | internal/game/game.go:231-249 | a cell outside the occupancy set lies on no snake and under no food item |
| Session.Game.OccupiedCells | internal/game/game.go:231-249 | the occupancy set is every player, enemy and food cell |
| Session.Game.IsSnakeAlive | internal/game/game.go:573-583 | the player is always alive; an enemy exactly while it is listed |
| Session.Game.RemoveEnemySnake | internal/game/game.go:651-662 | the list loses every occurrence of the snake, keeps the others in order, and nothing else changes |
| Session.Game.TriggerGameOver | internal/game/game.go:665-672 | sets game over and stops the player's speed timer; nothing else changes |
| Session.Game.HandleInput | internal/game/game.go:693-719 | NextDir becomes the input unless it is the exact reverse of the committed direction, in which case it is kept |
| Session.Game.TogglePause | internal/game/game.go:675-690 | flips pause; pausing stops the player's timer; resuming re-arms a non-nil timer one second over the truncated speed later |
| Session.Game.GetState | internal/game/game.go:738-771 | the view reports the session's fields and the player's multiplier (1 without a player); the player flash is cleared once 150 ms have passed |
| Session.Game.SpawnFoodItem | internal/game/game.go:227-304 | appends at most one item, never past 50; a new item lies on no snake and no food, in bounds, with its kind's points and duration |
| Session.Game.SpawnEnemyIfPossible | internal/game/game.go:774-805 | below three enemies, appends at most one fresh enemy facing left on cells no snake or food occupies; at three, nothing changes |
| Session.Game.Reset | internal/game/game.go:109-161 | a fresh player at its start, at most two placed enemies, at most three food items off every snake, score 0, base speed, not over or paused, spawns scheduled 5 s and 15 s ahead |
| Session.Game.StartRound | internal/game/game.go:145-160 | with the new snakes installed, the round state is cleared, the initial food spawned and the spawns scheduled |
| Session.Game.ClearRound | internal/game/game.go:145-152 | score 0, base speed, not over or paused, no food and no flash markers |
| Session.Game.SpawnInitialFood | internal/game/game.go:155-157 | at most three food items, none on a snake or on each other |
| Session.Game.constructor | internal/game/game.go:99-106 | a new game is a reset one |
| Session.Game.UpdateEnemyAI | internal/game/game.go:409-465 | NextDir becomes the steering rule's choice towards the first food item, or the committed direction when there is no food; never a reversal |
| Session.Game.Nourish | internal/game/game.go:509-514 | the eater grows and takes its speed effect; the player's score rises by the item's points |
| Session.Game.Eat | internal/game/game.go:509-525 | eating an item grows the eater, applies its effect, scores it for the player, sets the flash marker of the eater's side and tries a replacement spawn |
| Session.Game.EatAt | internal/game/game.go:505-529 | the first item on the new head is eaten, if any; with none, nothing changes |
| Session.Game.CommitStep | internal/game/game.go:484-502 | PrevBody becomes the body, Direction becomes NextDir, and the new head is the old head shifted one cell |
| Session.Game.Settle | internal/game/game.go:532-548 | the new head is prepended and the last segment dropped; an eaten item is removed by its index |
| Session.Game.FinalizeStep | internal/game/game.go:478-548 | without food: the body shifts one cell, same length, PrevBody the old body; with food: the body keeps its tail, PrevBody grows by one, the item is removed and the score and markers updated |
| Session.Game.FindCollision | internal/game/game.go:587-646 | the collision found is the one the ordered rules describe |
| Session.Game.React | internal/game/game.go:594-646 | the six outcomes: enemy on player head ends the game and removes it; enemy on player body removes it; player on enemy head ends the game and removes that enemy; player on enemy body ends the game; enemy on enemy head removes both; enemy on enemy body removes the mover |
| Session.Game.CheckInterSnakeCollisions | internal/game/game.go:587-648 | reports a collision exactly when a rule applies, and then the snake is gone or the game is over |
| Session.Game.Crash | internal/game/game.go:552-558 | a wall or self hit ends the game for the player and removes an enemy |
| Session.Game.CheckStep | internal/game/game.go:551-567 | a wall or self hit (Crashes) always ends the snake's turn: the player's ends the game with the enemy list kept, an enemy's removes it with the game-over flag kept; without one, the game-over flag and the enemy list are the outcome of the inter-snake rules (CollisionOf, Survivors) and the turn ends exactly when a rule applied; the turn ends only when the game is over or the snake is gone; bodies, food and session fields are untouched |
| Session.Game.Collide | internal/game/game.go:561-566 | the turn ends exactly when an inter-snake rule applies to the snake's head (CollisionOf); the game-over flag becomes set when the rule ends the game and the enemy list loses the snakes the rule removes (Survivors); bodies, food and session fields are untouched |
| Session.Game.Advance | internal/game/game.go:479-567 | one completed grid move: body, previous body, direction, food, score and flash markers are those of the finalised step (Stepped: the head moves one cell the buffered way, the tail is kept exactly when the first food item there is eaten and removed); then a wall or self hit ends the turn, ending the game for the player or removing an enemy, and otherwise the inter-snake outcome (CollisionOf) sets the game-over flag and the enemy list; the progress is kept, and another snake's move leaves the player's shape as it was; a player move that leaves the game running has its head clear of the walls, its body and every listed enemy (Clear), with the enemy list unchanged |
| Session.Game.AddProgress | internal/game/game.go:473-474 | the progress grows by the given amount and no other field of the snake changes |
| Session.Game.StepWhileDue | internal/game/game.go:477-567 | each grid move takes exactly one cell off the progress; a snake still in play in a running game makes exactly as many moves as the whole cells of progress it had (WholeCells) and ends below one cell; after a move the committed direction is the buffered one, and without one the body and direction are as they were; a player that moved in a game still running ends with its head clear (Clear) and the enemy list unchanged |
| Session.WholeCells | internal/game/game.go:477-478 | the number of moves the loop makes for a progress: its whole part, so that the rest is below one cell; none below one cell |
| Session.Game.UpdateSnakeProgress | internal/game/game.go:467-569 | a snake with no body does not move and keeps its progress; otherwise the snake has its frame's turn (TookTurn): the final progress is the old progress plus multiplier × speed × deltaTime minus one cell per step, and a snake still in play in a running game takes exactly the whole cells accrued (WholeCells) and ends below one cell; the buffered direction is kept and committed by any step; without a step the body and direction are as they were; another snake's turn leaves the player's shape as it was; a player that stepped in a game still running ends with its head clear of the walls, its body and every listed enemy (Clear), the enemy list unchanged |
| Session.Game.UpdateEnemies | internal/game/game.go:394-403 | walking the enemies listed when the loop starts, every enemy that took a turn was listed then and made exactly one frame's progress (TookTurn: accrued progress less one cell per step, all whole cells and under one cell left while it is still in play in a running game), every enemy without a turn is untouched, if the game is still running every enemy still listed has had its turn, and with no turns the game-over flag is unchanged; the player's shape is as it was |
| Session.Game.WalkStep | internal/game/game.go:395-402 | one iteration of the walk carries its invariants from index i + 1 to i: the recorded turns stay single frame turns, every enemy still listed from i on has had its turn, and every enemy without a turn is untouched; a turn is taken exactly when the enemy at i is still listed |
| Session.Game.EnemyTurn | internal/game/game.go:395-398 | a turn is taken exactly when the enemy is still listed: it steers (NextDir becomes the steering rule's choice towards the first food item, or the committed direction without food) and then has its frame's progress (TookTurn); a removed enemy is skipped and the game, the player and the enemy are untouched |
| Session.Game.SpawnDue | internal/game/game.go:373-382 | a due food or enemy spawn is rescheduled 5 s or 15 s after now and the others keep their time; the food list and the enemy list each keep their entries and gain at most one, and only when its spawn time has passed; a new food item lies on no snake and no other item, a new enemy (only below three) is fresh, at rest, facing left and off every occupied cell, the food item spawned in the same call included; nothing else changes |
| Session.Game.SpawnAndMovePlayer | internal/game/game.go:372-390 | the spawn times are rescheduled as SpawnDue states and the player has its frame's turn (TookTurn); the enemies listed before are untouched and any enemy now listed that was not is new and at rest; a player that stepped without ending the game has its head clear of the walls, its own body and every enemy listed before |
| Session.Game.Update | internal/game/game.go:367-406 | while over or paused nothing changes, neither the game nor any snake; otherwise the spawns are rescheduled and the player has its frame's turn (TookTurn, keeping its buffered direction); when a player step crashed (Crashes) or its head met an enemy listed before the frame, no enemy has a turn; each enemy takes at most one turn, a frame's progress (an enemy spawned this frame from rest), every enemy listed before without a turn is untouched, an enemy spawned this frame without a turn is still at rest, and if the game is still running every listed enemy has had its turn |

## Left out

- **Floating point.** `float64` speed, multipliers, progress and `deltaTime` are exact `real`s. Rounding is not modelled. The one truncation the code performs, `time.Duration(speed × factor)` in TogglePause, is modelled with `Floor`.
- **Heap order.** `container/heap`'s sift-up and sift-down are library code. The open set is an unordered sequence with minimum extraction (`HeapPop`), and `heap.Fix` after a cost change does nothing. Nodes with equal f and h may therefore pop in a different order than the Go heap would pop them; the length of the returned path is the same either way.
- PathQueue.PriorityQueue.Update: does not re-heapify (`heap.Fix` at astar.go:62), because the queue is unordered.
- **Concurrency and timers.**
  - The `time.AfterFunc` callback runs on its own goroutine in Go. It is the method `Snakes.Snake.SpeedTimerFires`, called with the firing time.
  - A timer is `NoTimer`, `Armed(at)` or `Stopped`. The model does not capture races between the callback and the frame update.
  - The timers of enemies are never stopped or re-armed by TogglePause, as in the code.
- **Clock and randomness.** `time.Now` is a `now` parameter, read once per call. `rand.Intn` and `rand.Float64` are arbitrary choices within their ranges, so a retry loop that gives up after its attempt bound is modelled as "may find a free cell or may give up". Which cell is found is not modelled.
- **Logging.** `log.Printf` calls have no behaviour to model.
- **Slices.**
  - Aliasing and capacity are not modelled; for example, `removeEnemySnake` filters into the same backing array.
  - `GetState` hands the caller the enemy slice and copies the food slice. The model's view (`GetState`) leaves out the player and the enemy slice, and returns the food slice by value.
- **Nil pointers.** Nil food items and nil enemies are never created by the code, so the model has no nil entries and no nil checks for them. The player is non-null in every reachable state.
- **Food effects.** The `Effect` closure is replaced by its food kind and `Foods.ApplyEffect`.
- **RenderableState.** `SpeedEffectDuration` is always 0, as in the code.
- **Unused constants.** `SpeedIncrement` and `MaxSpeed` are not modelled, because nothing uses them.
- **Other packages.** render, particle, scene, input, assets, the command entry point and the earlier top-level prototype are not part of this model.
- Snakes.Snake.SpeedTimerFires: models the callback of the latest timer only. A stopped timer whose callback had already started is not modelled.
- Session.Game.FinalizeStep: states the eaten item's removal over the first `|old items| - 1` entries, and the replacement that the spawn may append is described by EatAt and SpawnFoodItem rather than repeated here.
- Session.Game.UpdateEnemies: models the corrected loop (see Findings); the loop as written is modelled on index arithmetic in `EnemyList`.
- Session.Game.Update: the early return after the player's turn is stated for a player step that crashes or meets an enemy listed before the frame, not for one that meets an enemy spawned in the same frame, because that enemy's spawn cells are not named by the frame's final state.
- Session.Game.Update, Session.Game.UpdateEnemies: that an enemy removed earlier in the walk gets no turn is stated per turn (EnemyTurn takes one exactly when the enemy is still listed) but not carried to the frame's final state, which cannot tell when the enemy was removed.

**Behaviour the model follows as the code has it:**
- Enemy steering is the greedy rule of `updateEnemyAI`. It does not call `findPath` and keeps no cached path. Its fallback branch and anti-reversal correction never change the outcome (`Steering.EnemyDesiredDir` equals `GreedyDir`).
- Enemies that eat speed food do receive the speed effect: the closure is applied to whichever snake ate the item.
- On resume, TogglePause re-arms a non-nil timer to fire one second over the truncated speed later. It does not restore the remaining effect time.
- `HandleInput(DirNone)` is accepted. A step committed with it is a self collision (`Snakes.StandStillHitsSelf`).

## Findings

| source | as written | input that shows it | evidently intended | confidence | as-written member | corrected member |
|---|---|---|---|---|---|---|
| internal/game/game.go:394-403 with 627-628 | the backward enemy loop reads `EnemySnakes[i]` with only the guard `i >= 0`, after a head-on collision between two enemies has removed two entries | enemies [A, B]: B (index 1) meets A head-on, both are removed, and the next read is index 0 of an empty list; with three or more enemies and a non-last mover, an enemy that has already moved gets a second turn | every enemy listed when the loop starts takes at most one turn, a single frame's progress, and an enemy removed before its turn is skipped and left untouched | not executed | EnemyList.HeadOnAtLastIndexOverruns, EnemyList.HeadOnEarlierRepeatsTurn, EnemyList.TwoEnemiesHeadOnOverrun | Session.Game.UpdateEnemies |

=== FILE: astar.dfy ===
/**
 * findPath and reconstructPath from astar.go, over the node objects the search
 * allocates. Ghost maps `G` and `Par` shadow the nodes' `g` and `parent` fields
 * (`Coupled`), so the facts proved in AStarTheory carry over to the objects.
 */
module AStar {
  import opened Grid
  import opened Wrappers
  import opened PathQueue
  import opened AStarTheory

  /** The node objects agree with the ghost costs and parents, one node per position. */
  ghost predicate Coupled(nodeMap: map<Position, AStarNode>, G: map<Position, int>,
                          Par: map<Position, Position>, target: Position)
    reads nodeMap.Values
  {
    && nodeMap.Keys == G.Keys
    && (forall p | p in nodeMap ::
          && nodeMap[p].pos == p && nodeMap[p].g == G[p]
          && nodeMap[p].h == Heuristic(p, target) && nodeMap[p].f == G[p] + nodeMap[p].h)
    && (forall p | p in nodeMap ::
          if p in Par then Par[p] in nodeMap && nodeMap[p].parent == nodeMap[Par[p]]
          else nodeMap[p].parent == null)
  }

  /** The open set holds exactly the discovered, unexpanded nodes. */
  ghost predicate QueueMatches(openSet: PriorityQueue, nodeMap: map<Position, AStarNode>, closed: set<Position>)
    reads openSet, openSet.items, nodeMap.Values
  {
    && openSet.Indexed()
    && (forall n | n in openSet.items :: n.pos in nodeMap && nodeMap[n.pos] == n && n.pos !in closed)
    && (forall p | p in nodeMap && p !in closed :: nodeMap[p] in openSet.items)
  }

  /** Every node has a non-negative cost and a parent, if any, among `nodes` and strictly cheaper. */
  ghost predicate ParentsDescend(nodes: set<AStarNode>)
    reads nodes
  {
    forall n | n in nodes :: n.g >= 0 && (n.parent != null ==> n.parent in nodes && n.parent.g < n.g)
  }

  /** The positions from `n` back along parents, excluding the parentless node, in travel order. */
  ghost function Chain(n: AStarNode, nodes: set<AStarNode>): seq<Position>
    requires n in nodes && ParentsDescend(nodes)
    reads nodes
    decreases n.g
  {
    if n.parent == null then [] else Chain(n.parent, nodes) + [n.pos]
  }

  function Reverse(s: seq<Position>): (r: seq<Position>)
    ensures |r| == |s| && forall k | 0 <= k < |s| :: r[k] == s[|s| - 1 - k]
  {
    seq(|s|, k requires 0 <= k < |s| => s[|s| - 1 - k])
  }

  /** The parent chain of the node objects is the parent chain of the ghost maps. */
  lemma {:induction false} ChainMatches(start: Position, target: Position, width: int, height: int,
                                        obstacles: set<Position>, G: map<Position, int>,
                                        Par: map<Position, Position>, closed: set<Position>,
                                        nodeMap: map<Position, AStarNode>, p: Position)
    requires Core(start, target, width, height, obstacles, G, Par, closed)
    requires Coupled(nodeMap, G, Par, target) && p in nodeMap
    ensures ParentsDescend(nodeMap.Values) && ChainOk(G, Par)
    ensures Chain(nodeMap[p], nodeMap.Values) == ChainPath(G, Par, p)
    decreases G[p]
  {
    forall n | n in nodeMap.Values
      ensures n.g >= 0 && (n.parent != null ==> n.parent in nodeMap.Values && n.parent.g < n.g)
    {
      var q :| q in nodeMap && nodeMap[q] == n;
      if n.parent != null {
        assert q in Par && n.parent == nodeMap[Par[q]];
      }
    }
    if p in Par {
      ChainMatches(start, target, width, height, obstacles, G, Par, closed, nodeMap, Par[p]);
    }
  }

  /**
   * reconstructPath: collects positions from the target node back along parents,
   * stopping before the parentless start node, then reverses them in place.
   */
  method ReconstructPath(targetNode: AStarNode, ghost nodes: set<AStarNode>) returns (path: seq<Position>)
    requires targetNode in nodes && ParentsDescend(nodes)
    ensures path == Chain(targetNode, nodes)
  {
    path := [];
    var current: AStarNode? := targetNode;
    while current != null && current.parent != null
      invariant current != null && current in nodes
      invariant Chain(targetNode, nodes) == Chain(current, nodes) + Reverse(path)
      decreases current.g
    {
      var x := current.pos;
      assert Reverse(path + [x]) == [x] + Reverse(path);
      path := path + [x];
      current := current.parent;
    }
    ghost var collected := path;
    var i, j := 0, |path| - 1;
    while i < j
      invariant 0 <= i && i + j == |path| - 1 && i <= j + 1
      invariant |path| == |collected|
      invariant forall k | 0 <= k < i :: path[k] == collected[|collected| - 1 - k]
      invariant forall k | j < k < |path| :: path[k] == collected[|collected| - 1 - k]
      invariant forall k | i <= k <= j :: path[k] == collected[k]
    {
      path := path[i := path[j]][j := path[i]];
      i, j := i + 1, j - 1;
    }
    assert path == Reverse(collected);
  }

  /** A new node, costed and parented like the ghost maps say, extends the coupling. */
  lemma CoupledAdd(nodeMap: map<Position, AStarNode>, G: map<Position, int>, Par: map<Position, Position>,
                   target: Position, n: AStarNode, q: Position)
    requires Coupled(nodeMap, G, Par, target)
    requires n.pos !in nodeMap && q in nodeMap && n.parent == nodeMap[q]
    requires n.h == Heuristic(n.pos, target) && n.f == n.g + n.h
    ensures Coupled(nodeMap[n.pos := n], G[n.pos := n.g], Par[n.pos := q], target)
  {
    var m, G', Par' := nodeMap[n.pos := n], G[n.pos := n.g], Par[n.pos := q];
    forall p | p in m
      ensures if p in Par' then Par'[p] in m && m[p].parent == m[Par'[p]] else m[p].parent == null
    {
      if p != n.pos && p in Par {
        assert m[Par'[p]] == nodeMap[Par[p]];
      }
    }
  }

  /** A node pushed onto the queue for a new, unexpanded position keeps the queue matched. */
  lemma QueueMatchesAdd(openSet: PriorityQueue, before: seq<AStarNode>, nodeMap: map<Position, AStarNode>,
                        closed: set<Position>, n: AStarNode)
    requires openSet.Indexed() && openSet.items == before + [n]
    requires forall x | x in before :: x.pos in nodeMap && nodeMap[x.pos] == x && x.pos !in closed
    requires forall p | p in nodeMap && p !in closed :: nodeMap[p] in before
    requires n.pos !in nodeMap && n.pos !in closed
    ensures QueueMatches(openSet, nodeMap[n.pos := n], closed)
  {
  }

  /** A first sighting of `neighborPos`: a fresh node with parent `current` joins the map and the queue. */
  method InsertNode(openSet: PriorityQueue, nodeMap: map<Position, AStarNode>, current: AStarNode,
                    neighborPos: Position, tentativeG: int, target: Position, closed: set<Position>,
                    ghost G: map<Position, int>, ghost Par: map<Position, Position>)
    returns (nodeMap': map<Position, AStarNode>)
    requires Coupled(nodeMap, G, Par, target) && QueueMatches(openSet, nodeMap, closed)
    requires current.pos in nodeMap && nodeMap[current.pos] == current
    requires neighborPos !in nodeMap && neighborPos !in closed
    modifies openSet
    ensures Coupled(nodeMap', G[neighborPos := tentativeG], Par[neighborPos := current.pos], target)
    ensures QueueMatches(openSet, nodeMap', closed)
    ensures neighborPos in nodeMap' && fresh(nodeMap'[neighborPos]) && nodeMap' == nodeMap[neighborPos := nodeMap'[neighborPos]]
  {
    ghost var before := openSet.items;
    var neighborNode := new AStarNode(neighborPos, current);
    assert neighborNode !in before;
    nodeMap' := nodeMap[neighborPos := neighborNode];
    openSet.Push(neighborNode);
    neighborNode.g := tentativeG;
    neighborNode.h := Heuristic(neighborPos, target);
    neighborNode.f := neighborNode.g + neighborNode.h;
    // heap.Fix on the unordered queue leaves it as it is
    assert Coupled(nodeMap, G, Par, target);
    CoupledAdd(nodeMap, G, Par, target, neighborNode, current.pos);
    QueueMatchesAdd(openSet, before, nodeMap, closed, neighborNode);
  }

  /** A cheaper route to a queued node: it is re-parented to `current` and re-costed. */
  method ImproveNode(openSet: PriorityQueue, nodeMap: map<Position, AStarNode>, current: AStarNode,
                     neighborPos: Position, tentativeG: int, target: Position, closed: set<Position>,
                     ghost G: map<Position, int>, ghost Par: map<Position, Position>)
    requires Coupled(nodeMap, G, Par, target) && QueueMatches(openSet, nodeMap, closed)
    requires current.pos in nodeMap && nodeMap[current.pos] == current
    requires neighborPos in nodeMap && neighborPos !in closed
    modifies nodeMap[neighborPos]
    ensures Coupled(nodeMap, G[neighborPos := tentativeG], Par[neighborPos := current.pos], target)
    ensures QueueMatches(openSet, nodeMap, closed)
  {
    var neighborNode := nodeMap[neighborPos];
    neighborNode.parent := current;
    openSet.Update(neighborNode, tentativeG, Heuristic(neighborPos, target));
  }

  /**
   * One neighbour visit of the expansion loop: skips cells that are out of bounds,
   * blocked or expanded; creates and queues a node for a new cell; re-parents and
   * re-costs a queued node when the route through `current` is cheaper.
   */
  method RelaxNeighbor(openSet: PriorityQueue, nodeMap: map<Position, AStarNode>, current: AStarNode,
                       neighborPos: Position, target: Position, width: int, height: int,
                       obstacles: set<Position>, closed: set<Position>,
                       ghost G: map<Position, int>, ghost Par: map<Position, Position>)
    returns (nodeMap': map<Position, AStarNode>, ghost G': map<Position, int>, ghost Par': map<Position, Position>,
             ghost added: set<AStarNode>)
    requires Coupled(nodeMap, G, Par, target) && QueueMatches(openSet, nodeMap, closed)
    requires current.pos in closed && current.pos in nodeMap && nodeMap[current.pos] == current
    modifies openSet, nodeMap.Values
    ensures (G', Par') == Relax(G, Par, closed, current.pos, neighborPos, width, height, obstacles)
    ensures Coupled(nodeMap', G', Par', target) && QueueMatches(openSet, nodeMap', closed)
    ensures nodeMap.Keys <= nodeMap'.Keys && forall p | p in nodeMap :: nodeMap'[p] == nodeMap[p]
    ensures nodeMap'.Values <= nodeMap.Values + added && fresh(added)
  {
    nodeMap', G', Par', added := nodeMap, G, Par, {};
    if !IsValid(neighborPos, width, height) || neighborPos in obstacles || neighborPos in closed {
      return;
    }
    var tentativeG := current.g + 1;
    if neighborPos !in nodeMap {
      nodeMap' := InsertNode(openSet, nodeMap, current, neighborPos, tentativeG, target, closed, G, Par);
      added := {nodeMap'[neighborPos]};
      G', Par' := G[neighborPos := tentativeG], Par[neighborPos := current.pos];
    } else if tentativeG < nodeMap[neighborPos].g {
      ImproveNode(openSet, nodeMap, current, neighborPos, tentativeG, target, closed, G, Par);
      G', Par' := G[neighborPos := tentativeG], Par[neighborPos := current.pos];
    }
  }

  /** The expansion loop: visits the four neighbours of `current` in Offsets order. */
  method ExpandNode(openSet: PriorityQueue, nodeMap: map<Position, AStarNode>, current: AStarNode,
                    start: Position, target: Position, width: int, height: int,
                    obstacles: set<Position>, closed: set<Position>,
                    ghost G: map<Position, int>, ghost Par: map<Position, Position>)
    returns (nodeMap': map<Position, AStarNode>, ghost G': map<Position, int>, ghost Par': map<Position, Position>,
             ghost made: set<AStarNode>)
    requires Coupled(nodeMap, G, Par, target) && QueueMatches(openSet, nodeMap, closed)
    requires current.pos in closed && current.pos in nodeMap && nodeMap[current.pos] == current
    requires Inv(start, target, width, height, obstacles, G, Par, closed, current.pos, 0)
    modifies openSet, nodeMap.Values
    ensures Coupled(nodeMap', G', Par', target) && QueueMatches(openSet, nodeMap', closed)
    ensures Inv(start, target, width, height, obstacles, G', Par', closed, current.pos, |Offsets|)
    ensures nodeMap'.Values <= nodeMap.Values + made && fresh(made)
  {
    nodeMap', G', Par', made := nodeMap, G, Par, {};
    for k := 0 to |Offsets|
      invariant Coupled(nodeMap', G', Par', target) && QueueMatches(openSet, nodeMap', closed)
      invariant current.pos in nodeMap' && nodeMap'[current.pos] == current
      invariant Inv(start, target, width, height, obstacles, G', Par', closed, current.pos, k)
      invariant nodeMap'.Values <= nodeMap.Values + made && fresh(made)
    {
      ghost var added;
      nodeMap', G', Par', added :=
        VisitOffset(openSet, nodeMap', current, k, start, target, width, height, obstacles, closed, G', Par');
      made := made + added;
    }
  }

  /** One pass of the expansion loop: the neighbour at `Offsets[k]`, relaxed; the search invariant advances to k + 1. */
  method VisitOffset(openSet: PriorityQueue, nodeMap: map<Position, AStarNode>, current: AStarNode, k: nat,
                     start: Position, target: Position, width: int, height: int,
                     obstacles: set<Position>, closed: set<Position>,
                     ghost G: map<Position, int>, ghost Par: map<Position, Position>)
    returns (nodeMap': map<Position, AStarNode>, ghost G': map<Position, int>, ghost Par': map<Position, Position>,
             ghost added: set<AStarNode>)
    requires k < |Offsets|
    requires Coupled(nodeMap, G, Par, target) && QueueMatches(openSet, nodeMap, closed)
    requires current.pos in closed && current.pos in nodeMap && nodeMap[current.pos] == current
    requires Inv(start, target, width, height, obstacles, G, Par, closed, current.pos, k)
    modifies openSet, nodeMap.Values
    ensures Coupled(nodeMap', G', Par', target) && QueueMatches(openSet, nodeMap', closed)
    ensures current.pos in nodeMap' && nodeMap'[current.pos] == current
    ensures Inv(start, target, width, height, obstacles, G', Par', closed, current.pos, k + 1)
    ensures nodeMap'.Values <= nodeMap.Values + added && fresh(added)
  {
    var offset := Offsets[k];
    var neighborPos := Position(current.pos.x + offset.x, current.pos.y + offset.y);
    assert neighborPos == Add(current.pos, Offsets[k]);
    assert current.pos in G;
    nodeMap', G', Par', added :=
      RelaxNeighbor(openSet, nodeMap, current, neighborPos, target, width, height, obstacles, closed, G, Par);
    RelaxKeepsInv(start, target, width, height, obstacles, G, Par, closed, current.pos, k, G', Par');
  }

  /** Removing `x` from a queue of distinct nodes keeps every other node queued. */
  lemma RemainingAfterPop(before: seq<AStarNode>, after: seq<AStarNode>, x: AStarNode, n: AStarNode)
    requires multiset(after) + multiset{x} == multiset(before)
    requires n in before && n != x
    ensures n in after
  {
    assert multiset(before)[n] > 0;
  }

  /**
   * heap.Pop on the open set (the call at the head of the search loop), with what the
   * search needs about the node it yields: it has the least f among the unexpanded
   * discovered cells, and the queue now holds exactly the others.
   */
  method PopBest(openSet: PriorityQueue, nodeMap: map<Position, AStarNode>, closed: set<Position>,
                 target: Position, ghost G: map<Position, int>, ghost Par: map<Position, Position>)
    returns (current: AStarNode)
    requires Coupled(nodeMap, G, Par, target) && QueueMatches(openSet, nodeMap, closed)
    requires |openSet.items| > 0
    modifies openSet, openSet.items
    ensures current.pos in nodeMap && nodeMap[current.pos] == current && current.pos !in closed
    ensures Coupled(nodeMap, G, Par, target) && QueueMatches(openSet, nodeMap, closed + {current.pos})
    ensures forall y | y in G && y !in closed ::
      G[current.pos] + Heuristic(current.pos, target) <= G[y] + Heuristic(y, target)
  {
    ghost var before := openSet.items;
    current := openSet.HeapPop();
    var u := current.pos;
    assert current !in openSet.items;
    forall n | n in openSet.items
      ensures n in before
    {
      assert multiset(openSet.items)[n] > 0;
      assert multiset(before)[n] == multiset(openSet.items)[n] + multiset{current}[n];
    }
    forall y | y in G && y !in closed && y != u
      ensures nodeMap[y] in openSet.items
    {
      RemainingAfterPop(before, openSet.items, current, nodeMap[y]);
    }
  }

  /**
   * One iteration of the search loop: pops the open node of least f; if it is the
   * target, returns its reconstructed path, a shortest route; otherwise closes it and
   * visits its neighbours.
   */
  method SearchStep(openSet: PriorityQueue, nodeMap: map<Position, AStarNode>, closed: set<Position>,
                    start: Position, target: Position, width: int, height: int, obstacles: set<Position>,
                    ghost G: map<Position, int>, ghost Par: map<Position, Position>, ghost cur: Position)
    returns (found: Option<seq<Position>>, u: Position, closed': set<Position>,
             nodeMap': map<Position, AStarNode>, ghost G': map<Position, int>, ghost Par': map<Position, Position>,
             ghost made: set<AStarNode>)
    requires |openSet.items| > 0
    requires Coupled(nodeMap, G, Par, target) && QueueMatches(openSet, nodeMap, closed)
    requires Inv(start, target, width, height, obstacles, G, Par, closed, cur, |Offsets|)
    modifies openSet, openSet.items, nodeMap.Values
    ensures found.Some? ==> IsShortestPath(start, target, width, height, obstacles, found.value)
    ensures found.None? ==>
      && u in Universe(start, width, height) && u !in closed && closed' == closed + {u}
      && Coupled(nodeMap', G', Par', target) && QueueMatches(openSet, nodeMap', closed')
      && Inv(start, target, width, height, obstacles, G', Par', closed', u, |Offsets|)
      && nodeMap'.Values <= nodeMap.Values + made && fresh(made)
  {
    var current := PopBest(openSet, nodeMap, closed, target, G, Par);
    u := current.pos;
    if u == target {
      var p := Arrive(nodeMap, current, closed, start, target, width, height, obstacles, G, Par, cur);
      return Some(p), u, closed, nodeMap, G, Par, {};
    }
    closed', nodeMap', G', Par', made :=
      CloseAndExpand(openSet, nodeMap, current, closed, start, target, width, height, obstacles, G, Par, cur);
    found := None;
  }

  /** The popped node is the target: the path back along its parents is a shortest route. */
  method Arrive(nodeMap: map<Position, AStarNode>, current: AStarNode, closed: set<Position>,
                start: Position, target: Position, width: int, height: int, obstacles: set<Position>,
                ghost G: map<Position, int>, ghost Par: map<Position, Position>, ghost cur: Position)
    returns (path: seq<Position>)
    requires Coupled(nodeMap, G, Par, target)
    requires Inv(start, target, width, height, obstacles, G, Par, closed, cur, |Offsets|)
    requires current.pos == target && current.pos in nodeMap && nodeMap[current.pos] == current
    requires forall y | y in G && y !in closed ::
      G[current.pos] + Heuristic(current.pos, target) <= G[y] + Heuristic(y, target)
    ensures IsShortestPath(start, target, width, height, obstacles, path)
  {
    FoundIsShortest(start, target, width, height, obstacles, G, Par, closed, cur);
    ChainMatches(start, target, width, height, obstacles, G, Par, closed, nodeMap, target);
    path := ReconstructPath(current, nodeMap.Values);
  }

  /** The popped node is not the target: it joins the closed set and its neighbours are visited. */
  method CloseAndExpand(openSet: PriorityQueue, nodeMap: map<Position, AStarNode>, current: AStarNode,
                        closed: set<Position>, start: Position, target: Position, width: int, height: int,
                        obstacles: set<Position>, ghost G: map<Position, int>, ghost Par: map<Position, Position>,
                        ghost cur: Position)
    returns (closed': set<Position>, nodeMap': map<Position, AStarNode>, ghost G': map<Position, int>,
             ghost Par': map<Position, Position>, ghost made: set<AStarNode>)
    requires Coupled(nodeMap, G, Par, target) && QueueMatches(openSet, nodeMap, closed + {current.pos})
    requires Inv(start, target, width, height, obstacles, G, Par, closed, cur, |Offsets|)
    requires current.pos != target && current.pos !in closed
    requires current.pos in nodeMap && nodeMap[current.pos] == current
    requires forall y | y in G && y !in closed ::
      G[current.pos] + Heuristic(current.pos, target) <= G[y] + Heuristic(y, target)
    modifies openSet, nodeMap.Values
    ensures current.pos in Universe(start, width, height) && closed' == closed + {current.pos}
    ensures Coupled(nodeMap', G', Par', target) && QueueMatches(openSet, nodeMap', closed')
    ensures Inv(start, target, width, height, obstacles, G', Par', closed', current.pos, |Offsets|)
    ensures nodeMap'.Values <= nodeMap.Values + made && fresh(made)
  {
    var u := current.pos;
    DiscoveredInUniverse(start, target, width, height, obstacles, G, Par, closed);
    PoppedIsOptimal(start, target, width, height, obstacles, G, Par, closed, cur, u);
    CloseKeepsInv(start, target, width, height, obstacles, G, Par, closed, u, cur);
    closed' := closed + {u};
    nodeMap', G', Par', made := ExpandNode(openSet, nodeMap, current, start, target, width, height, obstacles, closed', G, Par);
  }

  /** The search's initial state: the start node, with g = 0, alone in the node map and the open set. */
  method NewSearch(start: Position, target: Position) returns (openSet: PriorityQueue, nodeMap: map<Position, AStarNode>)
    ensures fresh(openSet) && fresh(nodeMap.Values)
    ensures Coupled(nodeMap, map[start := 0], map[], target) && QueueMatches(openSet, nodeMap, {})
  {
    openSet := new PriorityQueue();
    nodeMap := map[];
    var startNode := new AStarNode(start, null);
    startNode.h := Heuristic(start, target);
    startNode.f := startNode.g + startNode.h;
    openSet.Push(startNode);
    nodeMap := nodeMap[start := startNode];
  }

  /**
   * findPath: A* from `start` to `target` on a `width` x `height` grid, stepping to
   * the four neighbours at cost 1 and never entering an out-of-bounds or obstacle
   * cell. The result excludes the start and ends at the target; it is a shortest
   * such route, and None (Go's nil) means no route exists.
   */
  method FindPath(start: Position, target: Position, width: int, height: int, obstacles: set<Position>)
    returns (path: Option<seq<Position>>)
    ensures path.Some? ==> IsShortestPath(start, target, width, height, obstacles, path.value)
    ensures path.None? ==> Unreachable(start, target, width, height, obstacles)
  {
    var openSet, nodeMap := NewSearch(start, target);
    var closed: set<Position> := {};
    ghost var G: map<Position, int> := map[start := 0];
    ghost var Par: map<Position, Position> := map[];
    ghost var cur := start;
    InitialInv(start, target, width, height, obstacles);
    while openSet.Len() > 0
      invariant fresh(openSet)
      invariant forall n | n in nodeMap.Values :: !old(allocated(n))
      invariant Coupled(nodeMap, G, Par, target) && QueueMatches(openSet, nodeMap, closed)
      invariant Inv(start, target, width, height, obstacles, G, Par, closed, cur, |Offsets|)
      decreases Universe(start, width, height) - closed
    {
      assert fresh(set n | n in openSet.items) by {
        forall n | n in openSet.items
          ensures n in nodeMap.Values
        {
          assert nodeMap[n.pos] in nodeMap.Values;
        }
      }
      ghost var before := nodeMap.Values;
      var found;
      ghost var made;
      found, cur, closed, nodeMap, G, Par, made :=
        SearchStep(openSet, nodeMap, closed, start, target, width, height, obstacles, G, Par, cur);
      if found.Some? {
        return found;
      }
      forall n | n in nodeMap.Values
        ensures !old(allocated(n))
      {
        if n !in before {
          assert n in made;
        }
      }
    }
    ExhaustedMeansUnreachable(start, target, width, height, obstacles, G, Par, closed, cur);
    return None;
  }
}

=== FILE: astar_theory.dfy ===
/**
 * What the A* search in astar.go establishes, stated over plain values.
 * `G` maps every discovered cell to its cost from the start, `Par` maps every
 * discovered cell but the start to the cell it was reached from, and `closed`
 * is the set of expanded cells. The search keeps `Inv`; the lemmas below show
 * that the node it pops is reached optimally, that an exhausted open set means
 * the target is unreachable, and that the parent chain is a route of length G.
 */
module AStarTheory {
  import opened Grid
  import opened Wrappers

  /** A route leaving `start`, one cell per step, through enterable cells only (start excluded). */
  predicate IsPath(start: Position, path: seq<Position>, width: int, height: int, obstacles: set<Position>)
  {
    && (forall i | 0 <= i < |path| :: IsValid(path[i], width, height) && path[i] !in obstacles)
    && (|path| > 0 ==> Adjacent(start, path[0]))
    && (forall i | 0 < i < |path| :: Adjacent(path[i - 1], path[i]))
  }

  /** The cell a route arrives at. */
  function PathEnd(start: Position, path: seq<Position>): Position
  {
    if |path| == 0 then start else path[|path| - 1]
  }

  /** The cell after `i` steps of a route (step 0 is the start). */
  function At(start: Position, path: seq<Position>, i: nat): Position
    requires i <= |path|
  {
    if i == 0 then start else path[i - 1]
  }

  /** `path` is a route to `target` no other route to `target` is shorter than. */
  ghost predicate IsShortestPath(start: Position, target: Position, width: int, height: int,
                                 obstacles: set<Position>, path: seq<Position>)
  {
    && IsPath(start, path, width, height, obstacles)
    && PathEnd(start, path) == target
    && forall q | IsPath(start, q, width, height, obstacles) && PathEnd(start, q) == target :: |path| <= |q|
  }

  /** No route from `start` arrives at `target`. */
  ghost predicate Unreachable(start: Position, target: Position, width: int, height: int, obstacles: set<Position>)
  {
    forall q | IsPath(start, q, width, height, obstacles) :: PathEnd(start, q) != target
  }

  // ---------------------------------------------------------------------------
  // Routes

  lemma PathPrefix(start: Position, path: seq<Position>, k: nat, width: int, height: int, obstacles: set<Position>)
    requires IsPath(start, path, width, height, obstacles) && k <= |path|
    ensures IsPath(start, path[..k], width, height, obstacles)
    ensures PathEnd(start, path[..k]) == At(start, path, k)
  {
  }

  lemma PathAppend(start: Position, path: seq<Position>, q: Position, width: int, height: int, obstacles: set<Position>)
    requires IsPath(start, path, width, height, obstacles)
    requires Adjacent(PathEnd(start, path), q) && IsValid(q, width, height) && q !in obstacles
    ensures IsPath(start, path + [q], width, height, obstacles)
  {
  }

  lemma PathPrepend(start: Position, n: Position, path: seq<Position>, width: int, height: int, obstacles: set<Position>)
    requires IsPath(n, path, width, height, obstacles)
    requires Adjacent(start, n) && IsValid(n, width, height) && n !in obstacles
    ensures IsPath(start, [n] + path, width, height, obstacles)
    ensures PathEnd(start, [n] + path) == PathEnd(n, path)
  {
  }

  /** Along a route, the distance to any cell shrinks by at most one per step. */
  lemma {:induction false} HeuristicAlongPath(start: Position, path: seq<Position>, m: nat, t: Position,
                                              width: int, height: int, obstacles: set<Position>)
    requires IsPath(start, path, width, height, obstacles) && m <= |path|
    ensures Heuristic(At(start, path, m), t) <= (|path| - m) + Heuristic(PathEnd(start, path), t)
    decreases |path| - m
  {
    if m < |path| {
      HeuristicAlongPath(start, path, m + 1, t, width, height, obstacles);
      HeuristicStep(At(start, path, m), At(start, path, m + 1), t);
    }
  }

  /** No route is shorter than the Manhattan distance between its ends. */
  lemma PathAtLeastManhattan(start: Position, path: seq<Position>, width: int, height: int, obstacles: set<Position>)
    requires IsPath(start, path, width, height, obstacles)
    ensures |path| >= Heuristic(start, PathEnd(start, path))
  {
    HeuristicAlongPath(start, path, 0, PathEnd(start, path), width, height, obstacles);
  }

  /** The next cell of a straight walk towards `t`: first along x, then along y. */
  function StepToward(s: Position, t: Position): (n: Position)
    requires s != t
    ensures Adjacent(s, n) && Heuristic(n, t) == Heuristic(s, t) - 1
  {
    if s.x < t.x then Position(s.x + 1, s.y)
    else if s.x > t.x then Position(s.x - 1, s.y)
    else if s.y < t.y then Position(s.x, s.y + 1)
    else Position(s.x, s.y - 1)
  }

  /** A walk from `s` to `t` of exactly Manhattan length. */
  function Walk(s: Position, t: Position): seq<Position>
    decreases Heuristic(s, t)
  {
    if s == t then [] else var n := StepToward(s, t); [n] + Walk(n, t)
  }

  /** With nothing blocking, the walk between two in-bounds cells is a route of Manhattan length. */
  lemma {:induction false} WalkIsPath(s: Position, t: Position, width: int, height: int)
    requires IsValid(s, width, height) && IsValid(t, width, height)
    ensures IsPath(s, Walk(s, t), width, height, {})
    ensures PathEnd(s, Walk(s, t)) == t
    ensures |Walk(s, t)| == Heuristic(s, t)
    decreases Heuristic(s, t)
  {
    if s != t {
      var n := StepToward(s, t);
      WalkIsPath(n, t, width, height);
      PathPrepend(s, n, Walk(n, t), width, height, {});
    }
  }

  // ---------------------------------------------------------------------------
  // The search invariant

  /**
   * Relaxation of one neighbour `q` of the expanded cell `c`: if `q` can be entered,
   * it has been discovered, and it is either expanded or no dearer than one more than `c`.
   */
  ghost predicate RelaxedTo(c: Position, q: Position, G: map<Position, int>, closed: set<Position>,
                            width: int, height: int, obstacles: set<Position>)
  {
    IsValid(q, width, height) && q !in obstacles ==>
      q in G && (q in closed || (c in G && G[q] <= G[c] + 1))
  }

  /** The first `k` neighbours of `c`, in the search's order, are relaxed. */
  ghost predicate RelaxedUpTo(c: Position, k: nat, G: map<Position, int>, closed: set<Position>,
                              width: int, height: int, obstacles: set<Position>)
  {
    forall j | 0 <= j < k && j < |Offsets| :: RelaxedTo(c, Add(c, Offsets[j]), G, closed, width, height, obstacles)
  }

  /** All four neighbours of `c` are relaxed. */
  ghost predicate FullyRelaxed(c: Position, G: map<Position, int>, closed: set<Position>,
                               width: int, height: int, obstacles: set<Position>)
  {
    RelaxedUpTo(c, |Offsets|, G, closed, width, height, obstacles)
  }

  /** Everything the search keeps except relaxation. */
  ghost predicate Core(start: Position, target: Position, width: int, height: int, obstacles: set<Position>,
                       G: map<Position, int>, Par: map<Position, Position>, closed: set<Position>)
  {
    && start in G && G[start] == 0 && start !in Par
    && closed <= G.Keys && target !in closed
    && (forall p | p in G :: G[p] >= 0)
    && (forall p | p in G && p != start :: p in Par && IsValid(p, width, height) && p !in obstacles)
    && (forall p {:trigger Par[p]} | p in Par ::
          p in G && Par[p] in closed && Par[p] in G && Adjacent(Par[p], p) && G[p] == G[Par[p]] + 1)
    && (forall q | IsPath(start, q, width, height, obstacles) && PathEnd(start, q) in closed ::
          G[PathEnd(start, q)] <= |q|)
  }

  /**
   * The search invariant while the neighbours of `cur` are being visited: every other
   * expanded cell is fully relaxed and `cur` is relaxed for its first `k` neighbours.
   * With `k` = 4 it is the invariant of the main loop.
   */
  ghost predicate Inv(start: Position, target: Position, width: int, height: int, obstacles: set<Position>,
                      G: map<Position, int>, Par: map<Position, Position>, closed: set<Position>,
                      cur: Position, k: nat)
  {
    && Core(start, target, width, height, obstacles, G, Par, closed)
    && (forall c {:trigger FullyRelaxed(c, G, closed, width, height, obstacles)} | c in closed && c != cur ::
          FullyRelaxed(c, G, closed, width, height, obstacles))
    && (cur in closed ==> RelaxedUpTo(cur, k, G, closed, width, height, obstacles))
  }

  /** The effect of visiting neighbour `q` of the expanded cell `c` on the costs and parents. */
  function Relax(G: map<Position, int>, Par: map<Position, Position>, closed: set<Position>,
                 c: Position, q: Position, width: int, height: int, obstacles: set<Position>)
    : (map<Position, int>, map<Position, Position>)
    requires c in G
  {
    if !IsValid(q, width, height) || q in obstacles || q in closed then (G, Par)
    else if q !in G || G[c] + 1 < G[q] then (G[q := G[c] + 1], Par[q := c])
    else (G, Par)
  }

  /** The state right after the start node is pushed satisfies the invariant. */
  lemma InitialInv(start: Position, target: Position, width: int, height: int, obstacles: set<Position>)
    ensures Inv(start, target, width, height, obstacles, map[start := 0], map[], {}, start, |Offsets|)
  {
  }

  /** Relaxations only lower costs, so an expanded cell's facts survive them. */
  lemma RelaxedToMonotone(c: Position, q: Position, G: map<Position, int>, G': map<Position, int>,
                          closed: set<Position>, width: int, height: int, obstacles: set<Position>)
    requires RelaxedTo(c, q, G, closed, width, height, obstacles)
    requires G.Keys <= G'.Keys && (forall p | p in G :: G'[p] <= G[p])
    requires c in G && c in closed && G'[c] == G[c]
    ensures RelaxedTo(c, q, G', closed, width, height, obstacles)
  {
  }

  /** Relaxing one more neighbour keeps an expanded cell's relaxed neighbours relaxed. */
  lemma RelaxedUpToMonotone(c: Position, k: nat, G: map<Position, int>, G': map<Position, int>,
                            closed: set<Position>, width: int, height: int, obstacles: set<Position>)
    requires RelaxedUpTo(c, k, G, closed, width, height, obstacles)
    requires G.Keys <= G'.Keys && (forall p | p in G :: G'[p] <= G[p])
    requires c in G && c in closed && G'[c] == G[c]
    ensures RelaxedUpTo(c, k, G', closed, width, height, obstacles)
  {
    forall j | 0 <= j < k && j < |Offsets|
      ensures RelaxedTo(c, Add(c, Offsets[j]), G', closed, width, height, obstacles)
    {
      RelaxedToMonotone(c, Add(c, Offsets[j]), G, G', closed, width, height, obstacles);
    }
  }

  /** Visiting the `k`-th neighbour of `cur` extends the relaxation of `cur` to `k` + 1 neighbours. */
  lemma RelaxKeepsInv(start: Position, target: Position, width: int, height: int, obstacles: set<Position>,
                      G: map<Position, int>, Par: map<Position, Position>, closed: set<Position>,
                      cur: Position, k: nat, G': map<Position, int>, Par': map<Position, Position>)
    requires Inv(start, target, width, height, obstacles, G, Par, closed, cur, k)
    requires cur in closed && k < |Offsets|
    requires cur in G && (G', Par') == Relax(G, Par, closed, cur, Add(cur, Offsets[k]), width, height, obstacles)
    ensures Inv(start, target, width, height, obstacles, G', Par', closed, cur, k + 1)
  {
    var q := Add(cur, Offsets[k]);
    OffsetIsAdjacent(cur, k);
    if G' == G {
      assert RelaxedTo(cur, q, G, closed, width, height, obstacles);
    } else {
      LowerKeepsInv(start, target, width, height, obstacles, G, Par, closed, cur, k);
    }
  }

  /** The case of RelaxKeepsInv where the neighbour's cost drops to G[cur] + 1 through `cur`. */
  lemma LowerKeepsInv(start: Position, target: Position, width: int, height: int, obstacles: set<Position>,
                      G: map<Position, int>, Par: map<Position, Position>, closed: set<Position>,
                      cur: Position, k: nat)
    requires Inv(start, target, width, height, obstacles, G, Par, closed, cur, k)
    requires cur in closed && k < |Offsets| && cur in G
    requires var q := Add(cur, Offsets[k]);
      IsValid(q, width, height) && q !in obstacles && q !in closed && (q !in G || G[cur] + 1 < G[q])
    ensures var q := Add(cur, Offsets[k]);
      Inv(start, target, width, height, obstacles, G[q := G[cur] + 1], Par[q := cur], closed, cur, k + 1)
  {
    var q := Add(cur, Offsets[k]);
    var G', Par' := G[q := G[cur] + 1], Par[q := cur];
    OffsetIsAdjacent(cur, k);
    assert q != start;
    assert G.Keys <= G'.Keys && forall p | p in G :: G'[p] <= G[p];
    forall c | c in closed && c != cur
      ensures FullyRelaxed(c, G', closed, width, height, obstacles)
    {
      assert FullyRelaxed(c, G, closed, width, height, obstacles);
      RelaxedUpToMonotone(c, |Offsets|, G, G', closed, width, height, obstacles);
    }
    RelaxedUpToMonotone(cur, k, G, G', closed, width, height, obstacles);
    assert RelaxedTo(cur, q, G', closed, width, height, obstacles);
    RelaxKeepsCore(start, target, width, height, obstacles, G, Par, closed, cur, q);
  }

  /** Lowering the cost of an unexpanded neighbour `q` of the expanded `cur` to G[cur] + 1 keeps Core. */
  lemma RelaxKeepsCore(start: Position, target: Position, width: int, height: int, obstacles: set<Position>,
                       G: map<Position, int>, Par: map<Position, Position>, closed: set<Position>,
                       cur: Position, q: Position)
    requires Core(start, target, width, height, obstacles, G, Par, closed)
    requires cur in closed && Adjacent(cur, q) && IsValid(q, width, height) && q !in obstacles
    requires q !in closed && q != start
    ensures Core(start, target, width, height, obstacles, G[q := G[cur] + 1], Par[q := cur], closed)
  {
  }

  /** Moving a popped cell into the closed set, before its neighbours are visited. */
  lemma CloseKeepsInv(start: Position, target: Position, width: int, height: int, obstacles: set<Position>,
                      G: map<Position, int>, Par: map<Position, Position>, closed: set<Position>,
                      u: Position, prev: Position)
    requires Inv(start, target, width, height, obstacles, G, Par, closed, prev, |Offsets|)
    requires u in G && u !in closed && u != target
    requires forall q | IsPath(start, q, width, height, obstacles) && PathEnd(start, q) == u :: G[u] <= |q|
    ensures Inv(start, target, width, height, obstacles, G, Par, closed + {u}, u, 0)
  {
    var closed' := closed + {u};
    forall c | c in closed' && c != u
      ensures FullyRelaxed(c, G, closed', width, height, obstacles)
    {
      ClosedIsRelaxed(start, target, width, height, obstacles, G, Par, closed, prev, c);
      forall j | 0 <= j < |Offsets|
        ensures RelaxedTo(c, Add(c, Offsets[j]), G, closed', width, height, obstacles)
      {
        assert RelaxedTo(c, Add(c, Offsets[j]), G, closed, width, height, obstacles);
      }
    }
  }

  /** Between expansions every expanded cell is fully relaxed. */
  lemma ClosedIsRelaxed(start: Position, target: Position, width: int, height: int, obstacles: set<Position>,
                        G: map<Position, int>, Par: map<Position, Position>, closed: set<Position>,
                        cur: Position, c: Position)
    requires Inv(start, target, width, height, obstacles, G, Par, closed, cur, |Offsets|)
    requires c in closed
    ensures FullyRelaxed(c, G, closed, width, height, obstacles)
  {
  }

  /** The first cell of a route that is not expanded (one exists when the route ends outside `closed`). */
  lemma {:induction false} FirstOpen(start: Position, path: seq<Position>, closed: set<Position>, j: nat)
    returns (m: nat)
    requires j <= |path|
    requires forall i | 0 <= i < j :: At(start, path, i) in closed
    requires At(start, path, |path|) !in closed
    ensures j <= m <= |path| && At(start, path, m) !in closed
    ensures forall i | 0 <= i < m :: At(start, path, i) in closed
    decreases |path| - j
  {
    if At(start, path, j) !in closed {
      m := j;
    } else {
      m := FirstOpen(start, path, closed, j + 1);
    }
  }

  /**
   * The node A* pops is reached optimally: if it has the least f = g + h among the
   * discovered, unexpanded cells, no route to it is shorter than its g.
   */
  lemma {:induction false} PoppedIsOptimal(start: Position, target: Position, width: int, height: int,
                                           obstacles: set<Position>, G: map<Position, int>,
                                           Par: map<Position, Position>, closed: set<Position>,
                                           cur: Position, u: Position)
    requires Inv(start, target, width, height, obstacles, G, Par, closed, cur, |Offsets|)
    requires u in G && u !in closed
    requires forall y | y in G && y !in closed :: G[u] + Heuristic(u, target) <= G[y] + Heuristic(y, target)
    ensures forall q | IsPath(start, q, width, height, obstacles) && PathEnd(start, q) == u :: G[u] <= |q|
  {
    forall q | IsPath(start, q, width, height, obstacles) && PathEnd(start, q) == u
      ensures G[u] <= |q|
    {
      var m := FirstOpen(start, q, closed, 0);
      var y := At(start, q, m);
      // y is discovered and costs at most m
      if m == 0 {
        assert y == start && G[y] == 0;
      } else {
        var x := At(start, q, m - 1);
        PathPrefix(start, q, m - 1, width, height, obstacles);
        assert G[x] <= m - 1;
        assert Adjacent(x, y) && IsValid(y, width, height) && y !in obstacles;
        var k := OffsetIndex(x, y);
        ClosedIsRelaxed(start, target, width, height, obstacles, G, Par, closed, cur, x);
        assert RelaxedTo(x, Add(x, Offsets[k]), G, closed, width, height, obstacles);
        assert y in G && G[y] <= m;
      }
      HeuristicAlongPath(start, q, m, target, width, height, obstacles);
    }
  }

  /** When every discovered cell is expanded, every route stays inside the expanded set. */
  lemma {:induction false} ExhaustedCoversRoutes(start: Position, target: Position, width: int, height: int,
                                                 obstacles: set<Position>, G: map<Position, int>,
                                                 Par: map<Position, Position>, closed: set<Position>,
                                                 cur: Position, path: seq<Position>)
    requires Inv(start, target, width, height, obstacles, G, Par, closed, cur, |Offsets|)
    requires G.Keys <= closed
    requires IsPath(start, path, width, height, obstacles)
    ensures PathEnd(start, path) in closed
    decreases |path|
  {
    if |path| > 0 {
      var n := |path| - 1;
      PathPrefix(start, path, n, width, height, obstacles);
      ExhaustedCoversRoutes(start, target, width, height, obstacles, G, Par, closed, cur, path[..n]);
      var x := PathEnd(start, path[..n]);
      var y := path[n];
      assert Adjacent(x, y);
      var k := OffsetIndex(x, y);
      ClosedIsRelaxed(start, target, width, height, obstacles, G, Par, closed, cur, x);
      assert RelaxedTo(x, Add(x, Offsets[k]), G, closed, width, height, obstacles);
    }
  }

  /** An exhausted open set means the target cannot be reached. */
  lemma ExhaustedMeansUnreachable(start: Position, target: Position, width: int, height: int,
                                  obstacles: set<Position>, G: map<Position, int>,
                                  Par: map<Position, Position>, closed: set<Position>, cur: Position)
    requires Inv(start, target, width, height, obstacles, G, Par, closed, cur, |Offsets|)
    requires G.Keys <= closed
    ensures Unreachable(start, target, width, height, obstacles)
  {
    forall q | IsPath(start, q, width, height, obstacles)
      ensures PathEnd(start, q) != target
    {
      ExhaustedCoversRoutes(start, target, width, height, obstacles, G, Par, closed, cur, q);
    }
  }

  /** The cells a search can ever discover: the start and the in-bounds cells. */
  ghost function Universe(start: Position, width: int, height: int): set<Position>
  {
    {start} + set x: int, y: int | 0 <= x < width && 0 <= y < height :: Position(x, y)
  }

  lemma DiscoveredInUniverse(start: Position, target: Position, width: int, height: int,
                             obstacles: set<Position>, G: map<Position, int>,
                             Par: map<Position, Position>, closed: set<Position>)
    requires Core(start, target, width, height, obstacles, G, Par, closed)
    ensures G.Keys <= Universe(start, width, height)
  {
    forall p | p in G
      ensures p in Universe(start, width, height)
    {
      if p != start {
        assert Position(p.x, p.y) in set x: int, y: int | 0 <= x < width && 0 <= y < height :: Position(x, y);
      }
    }
  }

  // ---------------------------------------------------------------------------
  // Parent chains

  /** Parents are discovered and strictly cheaper, so following them terminates. */
  ghost predicate ChainOk(G: map<Position, int>, Par: map<Position, Position>)
  {
    && (forall p | p in G :: G[p] >= 0)
    && (forall p {:trigger Par[p]} | p in Par :: p in G && Par[p] in G && G[Par[p]] < G[p])
  }

  /** The cells from `p` back to (excluding) the parentless cell, in travel order. */
  ghost function ChainPath(G: map<Position, int>, Par: map<Position, Position>, p: Position): seq<Position>
    requires ChainOk(G, Par) && p in G
    decreases G[p]
  {
    if p !in Par then [] else ChainPath(G, Par, Par[p]) + [p]
  }

  /** The parent chain of a discovered cell is a route to it whose length is its cost. */
  lemma {:induction false} ChainPathIsRoute(start: Position, target: Position, width: int, height: int,
                                            obstacles: set<Position>, G: map<Position, int>,
                                            Par: map<Position, Position>, closed: set<Position>, p: Position)
    requires Core(start, target, width, height, obstacles, G, Par, closed) && p in G
    ensures ChainOk(G, Par)
    ensures IsPath(start, ChainPath(G, Par, p), width, height, obstacles)
    ensures PathEnd(start, ChainPath(G, Par, p)) == p
    ensures |ChainPath(G, Par, p)| == G[p]
    decreases G[p]
  {
    if p in Par {
      ChainPathIsRoute(start, target, width, height, obstacles, G, Par, closed, Par[p]);
      PathAppend(start, ChainPath(G, Par, Par[p]), p, width, height, obstacles);
    }
  }

  /** When the popped cell is the target, its parent chain is a shortest route to it. */
  lemma FoundIsShortest(start: Position, target: Position, width: int, height: int,
                        obstacles: set<Position>, G: map<Position, int>,
                        Par: map<Position, Position>, closed: set<Position>, cur: Position)
    requires Inv(start, target, width, height, obstacles, G, Par, closed, cur, |Offsets|)
    requires target in G
    requires forall y | y in G && y !in closed :: G[target] + Heuristic(target, target) <= G[y] + Heuristic(y, target)
    ensures ChainOk(G, Par)
    ensures IsShortestPath(start, target, width, height, obstacles, ChainPath(G, Par, target))
  {
    PoppedIsOptimal(start, target, width, height, obstacles, G, Par, closed, cur, target);
    ChainPathIsRoute(start, target, width, height, obstacles, G, Par, closed, target);
  }

  // ---------------------------------------------------------------------------
  // Consequences for any result with findPath's contract

  /** Searching from a cell to itself yields the empty, non-nil path. */
  lemma ResultToSelf(start: Position, width: int, height: int, obstacles: set<Position>,
                     r: Option<seq<Position>>)
    requires r.Some? ==> IsShortestPath(start, start, width, height, obstacles, r.value)
    requires r.None? ==> Unreachable(start, start, width, height, obstacles)
    ensures r == Some([])
  {
    assert IsPath(start, [], width, height, obstacles);
  }

  /** A distinct target that is out of bounds or blocked is never reached. */
  lemma ResultBlockedTarget(start: Position, target: Position, width: int, height: int,
                            obstacles: set<Position>, r: Option<seq<Position>>)
    requires start != target && (!IsValid(target, width, height) || target in obstacles)
    requires r.Some? ==> IsShortestPath(start, target, width, height, obstacles, r.value)
    requires r.None? ==> Unreachable(start, target, width, height, obstacles)
    ensures r.None?
  {
  }

  /** With no obstacles and both ends in bounds, the path found has exactly Manhattan length. */
  lemma ResultUnobstructed(start: Position, target: Position, width: int, height: int,
                           r: Option<seq<Position>>)
    requires IsValid(start, width, height) && IsValid(target, width, height)
    requires r.Some? ==> IsShortestPath(start, target, width, height, {}, r.value)
    requires r.None? ==> Unreachable(start, target, width, height, {})
    ensures r.Some? && |r.value| == Heuristic(start, target)
  {
    WalkIsPath(start, target, width, height);
    PathAtLeastManhattan(start, r.value, width, height, {});
  }
}

=== FILE: enemy_list.dfy ===
/**
 * The enemy list as a sequence of snake identities: removeEnemySnake's filter,
 * and what the frame update's backwards enemy loop, as written, reads after a
 * head-on collision between two enemies.
 */
module EnemyList {
  import opened Foods

  /** The list without any occurrence of `x`, the others in their order (removeEnemySnake). */
  function RemoveAll<T(==)>(s: seq<T>, x: T): seq<T>
  {
    if |s| == 0 then []
    else if s[|s| - 1] == x then RemoveAll(s[..|s| - 1], x)
    else RemoveAll(s[..|s| - 1], x) + [s[|s| - 1]]
  }

  predicate Distinct<T(==)>(s: seq<T>)
  {
    forall i, j | 0 <= i < j < |s| :: s[i] != s[j]
  }

  /** An element survives the filter exactly when it was there and is not the one removed. */
  lemma {:induction false} RemoveAllMembers<T>(s: seq<T>, x: T)
    ensures forall y :: y in RemoveAll(s, x) <==> y in s && y != x
    ensures |RemoveAll(s, x)| <= |s|
  {
    if |s| > 0 {
      RemoveAllMembers(s[..|s| - 1], x);
      assert s == s[..|s| - 1] + [s[|s| - 1]];
    }
  }

  /** Filtering a list of distinct elements keeps them distinct. */
  lemma {:induction false} RemoveAllDistinct<T>(s: seq<T>, x: T)
    requires Distinct(s)
    ensures Distinct(RemoveAll(s, x))
  {
    if |s| > 0 {
      var init, last := s[..|s| - 1], s[|s| - 1];
      assert Distinct(init) by {
        forall i, j | 0 <= i < j < |init| ensures init[i] != init[j] {
          assert init[i] == s[i] && init[j] == s[j];
        }
      }
      RemoveAllDistinct(init, x);
      RemoveAllMembers(init, x);
      assert last !in init by {
        forall i | 0 <= i < |init| ensures init[i] != last {
          assert init[i] == s[i];
        }
      }
    }
  }

  /** In a list of distinct elements, removing an element is removing its one index. */
  lemma {:induction false} RemoveAllAt<T>(s: seq<T>, i: int)
    requires Distinct(s) && 0 <= i < |s|
    ensures RemoveAll(s, s[i]) == RemoveAt(s, i)
  {
    var n := |s| - 1;
    var init := s[..n];
    if i == n {
      RemoveAllAbsent(init, s[i]);
      assert init == RemoveAt(s, i);
    } else {
      RemoveAllAt(init, i);
      assert RemoveAt(s, i) == RemoveAt(init, i) + [s[n]];
    }
  }

  /** Removing an element that is not there changes nothing. */
  lemma {:induction false} RemoveAllAbsent<T>(s: seq<T>, x: T)
    requires x !in s
    ensures RemoveAll(s, x) == s
  {
    if |s| > 0 {
      RemoveAllAbsent(s[..|s| - 1], x);
      assert s == s[..|s| - 1] + [s[|s| - 1]];
    }
  }

  /**
   * The frame update's enemy loop as written: once the enemy at index `i` has taken
   * its turn and the list has become `after`, the loop goes on to read `after[i - 1]`
   * whenever `i - 1 >= 0`. This holds when that read is inside the list.
   */
  predicate AsWrittenNextReadOk<T>(after: seq<T>, i: int)
  {
    i - 1 < 0 || i - 1 < |after|
  }

  /**
   * When the last enemy of the list meets an earlier one head-on, both are removed
   * and the loop's next read is one past the end of the shortened list.
   */
  lemma HeadOnAtLastIndexOverruns<T>(es: seq<T>, j: int)
    requires Distinct(es) && |es| >= 2 && 0 <= j < |es| - 1
    ensures var i := |es| - 1;
            !AsWrittenNextReadOk(RemoveAll(RemoveAll(es, es[i]), es[j]), i)
  {
    var i := |es| - 1;
    var once := RemoveAll(es, es[i]);
    RemoveAllAt(es, i);
    RemoveAllDistinct(es, es[i]);
    assert once[j] == es[j];
    RemoveAllAt(once, j);
  }

  /**
   * When an enemy that is not last meets an earlier one head-on, the loop's next read
   * is the enemy after it, which has already taken its turn this frame.
   */
  lemma HeadOnEarlierRepeatsTurn<T>(es: seq<T>, i: int, j: int)
    requires Distinct(es) && 0 <= j < i < |es| - 1
    ensures var after := RemoveAll(RemoveAll(es, es[i]), es[j]);
            AsWrittenNextReadOk(after, i) && after[i - 1] == es[i + 1]
  {
    var once := RemoveAll(es, es[i]);
    RemoveAllAt(es, i);
    RemoveAllDistinct(es, es[i]);
    assert once[j] == es[j];
    RemoveAllAt(once, j);
  }

  /** A concrete instance: two enemies, the second meets the first head-on. */
  lemma TwoEnemiesHeadOnOverrun()
    ensures !AsWrittenNextReadOk(RemoveAll(RemoveAll([1, 2], 2), 1), 1)
  {
    HeadOnAtLastIndexOverruns([1, 2], 0);
  }
}

=== FILE: food.dfy ===
/**
 * Food items: their three kinds, the points and effect duration of each kind,
 * the draw that picks a kind, and the scan that finds the item a head lands on.
 */
module Foods {
  import opened Grid
  import opened Snakes

  const MaxTotalFoodItems: int := 50
  const InitialFoodItems: int := 3
  /** How long a speed-up or slow-down effect lasts. */
  const EffectDuration: int := 7 * Second

  datatype FoodType = Standard | SpeedUp | SlowDown

  /**
   * A food item. Its effect on the snake that eats it is determined by `kind`:
   * every kind grows the snake, and the two speed kinds also apply their multiplier
   * for `EffectDuration`.
   */
  datatype Food = Food(pos: Position, kind: FoodType, points: int, duration: int)

  function PointsFor(kind: FoodType): int
  {
    match kind
    case Standard => 10
    case SpeedUp => 15
    case SlowDown => 5
  }

  function DurationFor(kind: FoodType): int
  {
    if kind == Standard then 0 else EffectDuration
  }

  /** The lower end of the interval of draws in [0, 1) that selects each kind. */
  function DrawLow(kind: FoodType): real
  {
    match kind
    case SpeedUp => 0.0
    case SlowDown => 0.15
    case Standard => 0.30
  }

  /** The share of draws that selects each kind: 15%, 15% and 70%. */
  function DrawShare(kind: FoodType): real
  {
    match kind
    case SpeedUp => 0.15
    case SlowDown => 0.15
    case Standard => 0.70
  }

  /** The kind a uniform draw in [0, 1) selects: it lies in that kind's interval. */
  function FoodTypeFor(r: real): (kind: FoodType)
    ensures 0.0 <= r < 1.0 ==> DrawLow(kind) <= r < DrawLow(kind) + DrawShare(kind)
  {
    if r < 0.15 then SpeedUp else if r < 0.30 then SlowDown else Standard
  }

  /** The three intervals tile [0, 1): they are adjacent and their shares add up to one. */
  lemma DrawIntervalsTile()
    ensures DrawLow(SpeedUp) == 0.0
    ensures DrawLow(SlowDown) == DrawLow(SpeedUp) + DrawShare(SpeedUp)
    ensures DrawLow(Standard) == DrawLow(SlowDown) + DrawShare(SlowDown)
    ensures DrawLow(Standard) + DrawShare(Standard) == 1.0
  {
  }

  /** A food item as spawnFoodItem builds it: inside the grid, with its kind's points and duration. */
  predicate FoodOk(f: Food)
  {
    IsValid(f.pos, GridWidth, GridHeight) && f.points == PointsFor(f.kind) && f.duration == DurationFor(f.kind)
  }

  /** The speed multiplier a speed kind applies. */
  function FactorFor(kind: FoodType): real
    requires kind != Standard
  {
    if kind == SpeedUp then SpeedUpFactor else SlowDownFactor
  }

  /**
   * The Effect closure of a food item of kind `kind`, applied at time `now` to the
   * snake that ate it: grow, then for a speed kind the kind's multiplier for
   * `EffectDuration`.
   */
  method ApplyEffect(s: Snake, kind: FoodType, now: int)
    modifies s
    ensures |old(s.body)| > 0 ==> s.body == old(s.body) + [old(s.body)[|old(s.body)| - 1]]
    ensures |old(s.body)| == 0 ==> s.body == old(s.body) && s.prevBody == old(s.prevBody)
    ensures |old(s.body)| > 0 && |old(s.prevBody)| > 0 ==>
      s.prevBody == old(s.prevBody) + [old(s.prevBody)[|old(s.prevBody)| - 1]]
    ensures |old(s.body)| > 0 && |old(s.prevBody)| == 0 ==> s.prevBody == [old(s.body)[|old(s.body)| - 1]]
    ensures kind == Standard ==>
      s.speedFactor == old(s.speedFactor) && s.speedTimer == old(s.speedTimer) &&
      s.speedEffectEndTime == old(s.speedEffectEndTime)
    ensures kind != Standard ==>
      s.speedFactor == FactorFor(kind) && s.speedTimer == Armed(now + EffectDuration) &&
      s.speedEffectEndTime == now + EffectDuration
    ensures s.direction == old(s.direction) && s.nextDir == old(s.nextDir) && s.moveProgress == old(s.moveProgress)
  {
    s.Grow();
    match kind
    case Standard =>
    case SpeedUp => s.ApplySpeedBoost(SpeedUpFactor, EffectDuration, now);
    case SlowDown => s.ApplySpeedBoost(SlowDownFactor, EffectDuration, now);
  }

  /** The cells food items lie on. */
  function FoodCells(items: seq<Food>): set<Position>
  {
    set f | f in items :: f.pos
  }

  /**
   * The index of the first item lying on `pos`, or -1 when there is none (the
   * ateFoodIndex of a finalised step).
   */
  function FirstFoodAt(items: seq<Food>, pos: Position): (k: int)
    ensures -1 <= k < |items|
    ensures k == -1 <==> forall j | 0 <= j < |items| :: items[j].pos != pos
    ensures k >= 0 ==> items[k].pos == pos && forall j | 0 <= j < k :: items[j].pos != pos
  {
    if |items| == 0 then -1
    else if items[0].pos == pos then 0
    else
      var k := FirstFoodAt(items[1..], pos);
      if k == -1 then -1 else k + 1
  }

  /** Removing the element at index `i` (append(s[:i], s[i+1:]...)): the others keep their order. */
  function RemoveAt<T>(s: seq<T>, i: int): (r: seq<T>)
    requires 0 <= i < |s|
    ensures |r| == |s| - 1
    ensures forall k | 0 <= k < i :: r[k] == s[k]
    ensures forall k | i <= k < |r| :: r[k] == s[k + 1]
    ensures forall x | x in r :: x in s
  {
    s[..i] + s[i + 1..]
  }

  /** Removing an index inside a prefix commutes with taking the prefix. */
  lemma RemoveAtPrefix<T>(s: seq<T>, n: int, i: int)
    requires 0 <= i < n <= |s|
    ensures RemoveAt(s, i)[..n - 1] == RemoveAt(s[..n], i)
  {
  }
}

=== FILE: grid.dfy ===
/**
 * Grid geometry shared by the session engine and the pathfinder: cells,
 * travel directions, the Manhattan distance used as the A* heuristic, the
 * bounds test, and the one-cell shift a finalised step applies to the head.
 */
module Grid {

  /** The session engine's board size, in cells. */
  const GridWidth: int := 40
  const GridHeight: int := 30

  /** A cell of the grid; `x` grows to the right and `y` grows downwards. */
  datatype Position = Position(x: int, y: int)

  /** A travel direction; `DirNone` is the "no input" sentinel. */
  datatype Direction = DirNone | DirUp | DirDown | DirLeft | DirRight

  /** Manhattan distance between two cells (the A* heuristic). */
  function Heuristic(a: Position, b: Position): (r: int)
    ensures r >= 0
    ensures r == 0 <==> a == b
  {
    var dx := a.x - b.x;
    var dy := a.y - b.y;
    (if dx < 0 then -dx else dx) + (if dy < 0 then -dy else dy)
  }

  lemma HeuristicSymmetric(a: Position, b: Position)
    ensures Heuristic(a, b) == Heuristic(b, a)
  {
  }

  /**
   * Whether a cell lies inside a `width` x `height` grid: only a non-empty grid
   * has cells, and a cell inside it is at most width + height - 2 steps from the
   * corner cell (0, 0).
   */
  predicate IsValid(pos: Position, width: int, height: int): (ok: bool)
    ensures ok ==> width > 0 && height > 0
    ensures ok ==> Heuristic(pos, Position(0, 0)) <= width + height - 2
  {
    pos.x >= 0 && pos.x < width && pos.y >= 0 && pos.y < height
  }

  /** Two cells are 4-neighbours. */
  predicate Adjacent(a: Position, b: Position)
  {
    Heuristic(a, b) == 1
  }

  function Add(p: Position, d: Position): Position
  {
    Position(p.x + d.x, p.y + d.y)
  }

  /** The neighbour offsets the pathfinder visits, in its order: up, down, left, right. */
  const Offsets: seq<Position> := [Position(0, -1), Position(0, 1), Position(-1, 0), Position(1, 0)]

  /** The offset index that leads from `a` to its neighbour `b`. */
  function OffsetIndex(a: Position, b: Position): (k: nat)
    requires Adjacent(a, b)
    ensures k < |Offsets| && b == Add(a, Offsets[k])
  {
    if b.y < a.y then 0 else if b.y > a.y then 1 else if b.x < a.x then 2 else 3
  }

  /** Every offset leads to a 4-neighbour. */
  lemma OffsetIsAdjacent(p: Position, k: nat)
    requires k < |Offsets|
    ensures Adjacent(p, Add(p, Offsets[k]))
  {
  }

  /** One grid step changes the distance to any cell by at most one (the heuristic is consistent). */
  lemma HeuristicStep(a: Position, b: Position, t: Position)
    requires Adjacent(a, b)
    ensures Heuristic(a, t) <= Heuristic(b, t) + 1
  {
  }

  /** The head a finalised step moves to: one cell in direction `d`; `DirNone` does not move. */
  function Shift(p: Position, d: Direction): Position
  {
    match d
    case DirUp => Position(p.x, p.y - 1)
    case DirDown => Position(p.x, p.y + 1)
    case DirLeft => Position(p.x - 1, p.y)
    case DirRight => Position(p.x + 1, p.y)
    case DirNone => p
  }

  lemma ShiftAdjacent(p: Position, d: Direction)
    ensures d != DirNone ==> Adjacent(p, Shift(p, d))
    ensures d == DirNone ==> Shift(p, d) == p
  {
  }

  /** `a` is the exact 180-degree reversal of `b`. */
  predicate IsReverse(a: Direction, b: Direction)
  {
    (a == DirUp && b == DirDown) || (a == DirDown && b == DirUp) ||
    (a == DirLeft && b == DirRight) || (a == DirRight && b == DirLeft)
  }

  /** Reversing and then shifting back returns to the start cell. */
  lemma ReverseShiftsBack(p: Position, a: Direction, b: Direction)
    requires IsReverse(a, b)
    ensures Shift(Shift(p, b), a) == p
  {
  }
}

=== FILE: path_queue.dfy ===
/**
 * The A* search nodes and the open-set priority queue. A node is an object:
 * the queue and the node map share it, and the search updates its cost,
 * parent and queue slot in place.
 */
module PathQueue {
  import opened Grid

  class AStarNode {
    /** Grid position; never reassigned after the node is created. */
    const pos: Position
    /** Cost from the start. */
    var g: int
    /** Heuristic cost to the target. */
    var h: int
    /** g + h. */
    var f: int
    /** Predecessor on the best known route; null for the start node. */
    var parent: AStarNode?
    /** Slot in the priority queue; -1 once popped. */
    var index: int

    /** A composite literal naming only `pos` and `parent`: the other fields take Go's zero value. */
    constructor (pos: Position, parent: AStarNode?)
      ensures this.pos == pos && this.parent == parent
      ensures g == 0 && h == 0 && f == 0 && index == 0
    {
      this.pos := pos;
      this.parent := parent;
      g, h, f, index := 0, 0, 0, 0;
    }
  }

  /** Queue order: smaller f first, ties broken by smaller h. */
  predicate KeyLess(a: AStarNode, b: AStarNode)
    reads a`f, a`h, b`f, b`h
  {
    if a.f == b.f then a.h < b.h else a.f < b.f
  }

  /** KeyLess is a strict order, so a minimal element is well defined. */
  lemma KeyLessStrictOrder(a: AStarNode, b: AStarNode, c: AStarNode)
    ensures !KeyLess(a, a)
    ensures KeyLess(a, b) ==> !KeyLess(b, a)
    ensures KeyLess(a, b) && KeyLess(b, c) ==> KeyLess(a, c)
    ensures !KeyLess(a, b) && !KeyLess(b, a) ==> a.f == b.f && a.h == b.h
  {
  }

  /** The positions of a sequence of nodes (`pos` is immutable, so this reads nothing). */
  function Positions(q: seq<AStarNode>): set<Position>
  {
    set n | n in q :: n.pos
  }

  class PriorityQueue {
    var items: seq<AStarNode>

    /** Every queued node records its own slot. */
    ghost predicate Indexed()
      reads this, items
    {
      forall i | 0 <= i < |items| :: items[i].index == i
    }

    constructor ()
      ensures items == [] && Indexed()
    {
      items := [];
    }

    /** The number of queued nodes; zero exactly when the queue is empty. */
    function Len(): (n: int)
      reads this
      ensures n >= 0 && (n == 0 <==> items == [])
    {
      |items|
    }

    /** Slot `i` comes before slot `j`: never both ways, and never a slot before itself. */
    predicate Less(i: int, j: int): (r: bool)
      requires 0 <= i < |items| && 0 <= j < |items|
      reads this, items
      ensures r ==> i != j && !KeyLess(items[j], items[i])
    {
      KeyLess(items[i], items[j])
    }

    /** Exchanges two slots and records each node's new slot; no cost changes. */
    method Swap(i: int, j: int)
      requires 0 <= i < |items| && 0 <= j < |items|
      modifies this, items[i], items[j]
      ensures items == old(items)[i := old(items[j])][j := old(items[i])]
      ensures items[j].index == j && (old(items[i]) != old(items[j]) ==> items[i].index == i)
      ensures forall n | n in old(items) ::
        n.g == old(n.g) && n.h == old(n.h) && n.f == old(n.f) && n.parent == old(n.parent)
      ensures old(Indexed()) ==> Indexed()
    {
      items := items[i := items[j]][j := items[i]];
      items[i].index := i;
      items[j].index := j;
    }

    /** Appends a node and records its slot. */
    method Push(x: AStarNode)
      modifies this, x
      ensures items == old(items) + [x]
      ensures x.index == old(|items|)
      ensures x.g == old(x.g) && x.h == old(x.h) && x.f == old(x.f) && x.parent == old(x.parent)
      ensures old(Indexed()) && x !in old(items) ==> Indexed()
    {
      var n := |items|;
      x.index := n;
      items := items + [x];
    }

    /** Removes the last slot and marks its node as out of the queue. */
    method Pop() returns (x: AStarNode)
      requires |items| > 0
      modifies this, items[|items| - 1]
      ensures x == old(items[|items| - 1]) && items == old(items[..|items| - 1])
      ensures x.index == -1
      ensures x.g == old(x.g) && x.h == old(x.h) && x.f == old(x.f) && x.parent == old(x.parent)
      ensures old(Indexed()) ==> Indexed()
    {
      var n := |items|;
      x := items[n - 1];
      x.index := -1;
      items := items[..n - 1];
    }

    /** Installs new costs on a queued node (the re-heapify is a no-op on an unordered queue). */
    method Update(item: AStarNode, g: int, h: int)
      modifies item
      ensures item.g == g && item.h == h && item.f == g + h
      ensures item.parent == old(item.parent) && item.index == old(item.index)
    {
      item.g := g;
      item.h := h;
      item.f := g + h;
    }

    /** The slot of a queued node that no other queued node precedes. */
    method MinIndex() returns (m: int)
      requires |items| > 0
      ensures 0 <= m < |items|
      ensures forall k | 0 <= k < |items| :: !KeyLess(items[k], items[m])
    {
      m := 0;
      var i := 1;
      while i < |items|
        invariant 0 <= m < |items| && 1 <= i <= |items|
        invariant forall k | 0 <= k < i :: !KeyLess(items[k], items[m])
      {
        if Less(i, m) {
          m := i;
        }
        i := i + 1;
      }
    }

    /**
     * The first half of heap.Pop: brings a node no other queued node precedes into
     * the last slot (container/heap swaps the root there; here the minimum is found by a scan).
     */
    method MinToLast()
      requires |items| > 0 && Indexed()
      modifies this, items
      ensures multiset(items) == multiset(old(items)) && |items| == |old(items)|
      ensures items[|items| - 1] in old(items)
      ensures forall k | 0 <= k < |items| :: !KeyLess(items[k], items[|items| - 1])
      ensures Indexed()
      ensures forall n | n in old(items) ::
        n.g == old(n.g) && n.h == old(n.h) && n.f == old(n.f) && n.parent == old(n.parent)
    {
      var n := |items|;
      var m := MinIndex();
      ghost var before := items;
      Swap(m, n - 1);
      assert items == before[m := before[n - 1]][n - 1 := before[m]];
      assert items[n - 1] == before[m];
      forall k | 0 <= k < n
        ensures !KeyLess(items[k], items[n - 1])
      {
        if k == m {
          assert items[k] == before[n - 1];
        } else if k != n - 1 {
          assert items[k] == before[k];
        }
      }
    }

    /**
     * heap.Pop from container/heap: removes and returns a node no other queued
     * node precedes.
     */
    method HeapPop() returns (x: AStarNode)
      requires |items| > 0 && Indexed()
      modifies this, items
      ensures x in old(items) && x.index == -1
      ensures multiset(items) + multiset{x} == multiset(old(items))
      ensures forall n | n in items :: !KeyLess(n, x)
      ensures Indexed()
      ensures forall n | n in old(items) ::
        n.g == old(n.g) && n.h == old(n.h) && n.f == old(n.f) && n.parent == old(n.parent)
    {
      MinToLast();
      var n := |items|;
      assert items == items[..n - 1] + [items[n - 1]];
      label BeforePop:
      x := Pop();
      forall k | 0 <= k < n - 1
        ensures !KeyLess(items[k], x)
      {
        assert old@BeforePop(!KeyLess(items[k], items[n - 1]));
      }
    }
  }
}

=== FILE: session.dfy ===
/**
 * The game session (game.go's Game): the player snake, the enemy snakes and the
 * food on the board, the score and the game-over and pause flags, the spawn
 * schedule and the "food eaten" flash markers, and the frame update that moves
 * every snake.
 *
 * The clock is a `now` parameter (nanoseconds), read once per call. Random draws
 * are arbitrary choices (`:|`) within their ranges, so every contract holds for
 * every outcome of the draws.
 */
module Session {
  import opened Wrappers
  import opened Grid
  import opened Snakes
  import opened Foods
  import opened Steering
  import opened EnemyList

  const InitialSpeed: real := 8.0
  const NumEnemySnakes: int := 2
  const MaxEnemySnakes: int := 3
  const FoodSpawnInterval: int := 5 * Second
  const EnemySpawnInterval: int := 15 * Second
  const FoodFlashDuration: int := 150 * Millisecond

  /** The player's starting cells: a horizontal row whose head is at (10, 15), tail to the left. */
  function PlayerStartBody(): (body: seq<Position>)
    ensures |body| == InitialSnakeLen
    ensures forall i | 0 <= i < |body| :: body[i] == Position(GridWidth / 4 - i, GridHeight / 2)
  {
    seq(InitialSnakeLen, i => Position(GridWidth / 4 - i, GridHeight / 2))
  }

  /** An enemy's starting cells: a horizontal row whose head is at `start`, tail to the right. */
  function EnemyBodyAt(start: Position): (body: seq<Position>)
    ensures |body| == InitialSnakeLen && body[0] == start
    ensures forall i | 0 <= i < |body| :: body[i] == Position(start.x + i, start.y)
  {
    seq(InitialSnakeLen, i => Position(start.x + i, start.y))
  }

  /**
   * The player's starting body is a well-formed snake inside the grid: its cells
   * are in bounds, distinct and consecutive, and its first step to the right
   * lands inside the grid on a cell the body does not cover.
   */
  lemma PlayerStartOk()
    ensures var body := PlayerStartBody();
      && (forall i | 0 <= i < |body| :: IsValid(body[i], GridWidth, GridHeight))
      && (forall i | 0 < i < |body| :: Adjacent(body[i - 1], body[i]))
      && Distinct(body)
      && IsValid(Shift(body[0], DirRight), GridWidth, GridHeight)
      && Shift(body[0], DirRight) !in body
  {
  }

  /**
   * An enemy's starting body is distinct, consecutive cells; it lies inside the
   * grid exactly when its head and the two cells to the right of it do, and its
   * first step to the left lands on a cell the body does not cover.
   */
  lemma EnemyBodyOk(start: Position)
    ensures var body := EnemyBodyAt(start);
      && ((forall i | 0 <= i < |body| :: IsValid(body[i], GridWidth, GridHeight)) <==>
          0 <= start.x && start.x + InitialSnakeLen - 1 < GridWidth && 0 <= start.y < GridHeight)
      && (forall i | 0 < i < |body| :: Adjacent(body[i - 1], body[i]))
      && Distinct(body)
      && Shift(body[0], DirLeft) !in body
  {
    var body := EnemyBodyAt(start);
    if forall i | 0 <= i < |body| :: IsValid(body[i], GridWidth, GridHeight) {
      assert IsValid(body[0], GridWidth, GridHeight) && IsValid(body[InitialSnakeLen - 1], GridWidth, GridHeight);
    }
  }

  /** The cells a body covers. */
  function Cells(body: seq<Position>): set<Position>
  {
    set p | p in body
  }

  /** The cells the bodies of a list of snakes cover. */
  function EnemyCells(es: seq<Snake>): set<Position>
    reads es
  {
    if |es| == 0 then {} else EnemyCells(es[..|es| - 1]) + Cells(es[|es| - 1].body)
  }

  /** A cell is outside EnemyCells exactly when it lies on none of the bodies. */
  lemma {:induction false} EnemyCellsMembers(es: seq<Snake>, p: Position)
    ensures p !in EnemyCells(es) <==> forall e | e in es :: p !in Cells(e.body)
  {
    if |es| > 0 {
      EnemyCellsMembers(es[..|es| - 1], p);
      assert es == es[..|es| - 1] + [es[|es| - 1]];
    }
  }

  /** Every cell of `body` is inside the grid and not in `occupied`. */
  predicate Placeable(body: seq<Position>, occupied: set<Position>)
  {
    forall k | 0 <= k < |body| :: body[k] !in occupied && IsValid(body[k], GridWidth, GridHeight)
  }

  /** Adds the cells of a body to an occupancy set, segment by segment. */
  method MarkCells(occupied: set<Position>, body: seq<Position>) returns (marked: set<Position>)
    ensures marked == occupied + Cells(body)
  {
    marked := occupied;
    for i := 0 to |body|
      invariant marked == occupied + Cells(body[..i])
    {
      assert body[..i + 1] == body[..i] + [body[i]];
      marked := marked + {body[i]};
    }
    assert body[..|body|] == body;
  }

  /**
   * createEnemy: up to 600 random placements of a three-cell row, head in the right
   * quarter of the board, each kept only when every cell is inside the grid and
   * free; null when every attempt fails.
   */
  method CreateEnemy(occupied: set<Position>) returns (enemy: Snake?)
    ensures enemy != null ==> fresh(enemy) && !enemy.isPlayer && enemy.Ok()
    ensures enemy != null ==>
      enemy.body == EnemyBodyAt(enemy.body[0]) && Placeable(enemy.body, occupied) &&
      enemy.body[0].x >= GridWidth - GridWidth / 4
    ensures enemy != null ==>
      enemy.prevBody == enemy.body && enemy.direction == DirLeft && enemy.nextDir == DirLeft &&
      enemy.speedFactor == 1.0 && enemy.speedTimer == NoTimer &&
      enemy.speedEffectEndTime == ZeroTime && enemy.moveProgress == 0.0
  {
    var attempts := 0;
    var maxAttempts := (GridWidth * GridHeight) / 2;
    while attempts < maxAttempts
      invariant 0 <= attempts <= maxAttempts
    {
      var dx: int :| 0 <= dx < GridWidth / 4;
      var startY: int :| 0 <= startY < GridHeight;
      var start := Position(GridWidth - GridWidth / 4 + dx, startY);
      ghost var body := EnemyBodyAt(start);
      var validPlacement := true;
      var i := 0;
      while i < InitialSnakeLen
        invariant 0 <= i <= InitialSnakeLen && validPlacement
        invariant forall k | 0 <= k < i :: body[k] !in occupied && IsValid(body[k], GridWidth, GridHeight)
      {
        var pos := Position(start.x + i, start.y);
        assert pos == body[i];
        if pos in occupied || pos.x >= GridWidth || pos.x < 0 || pos.y >= GridHeight || pos.y < 0 {
          validPlacement := false;
          break;
        }
        i := i + 1;
      }
      if validPlacement {
        enemy := new Snake(EnemyBodyAt(start), DirLeft, false);
        return;
      }
      attempts := attempts + 1;
    }
    enemy := null;
  }

  /**
   * Each enemy of `es` starts moving left on cells inside the grid that neither the
   * player's body nor an earlier enemy covers.
   */
  ghost predicate EnemiesPlaced(es: seq<Snake>, playerBody: seq<Position>)
    reads es
  {
    forall k | 0 <= k < |es| ::
      es[k].direction == DirLeft && Placeable(es[k].body, Cells(playerBody) + EnemyCells(es[..k]))
  }

  /** The enemy loop of Reset: two createEnemy calls, each against the cells taken so far. */
  method CreateInitialEnemies(playerBody: seq<Position>) returns (es: seq<Snake>)
    ensures |es| <= NumEnemySnakes && Distinct(es) && EnemiesPlaced(es, playerBody)
    ensures forall e | e in es :: fresh(e) && !e.isPlayer && e.Ok()
  {
    var occupied := MarkCells({}, playerBody);
    es := [];
    for i := 0 to NumEnemySnakes
      invariant |es| <= i && Distinct(es) && EnemiesPlaced(es, playerBody)
      invariant occupied == Cells(playerBody) + EnemyCells(es)
      invariant forall e | e in es :: fresh(e) && !e.isPlayer && e.Ok()
    {
      es, occupied := AddEnemy(playerBody, es, occupied);
    }
  }

  /** Appending an enemy placed against the cells taken so far keeps the list placed. */
  lemma PlacedExtend(es: seq<Snake>, e: Snake, playerBody: seq<Position>)
    requires EnemiesPlaced(es, playerBody)
    requires e.direction == DirLeft && Placeable(e.body, Cells(playerBody) + EnemyCells(es))
    ensures EnemiesPlaced(es + [e], playerBody)
    ensures EnemyCells(es + [e]) == EnemyCells(es) + Cells(e.body)
  {
    var es' := es + [e];
    assert es'[..|es|] == es;
    forall k | 0 <= k < |es'|
      ensures es'[k].direction == DirLeft && Placeable(es'[k].body, Cells(playerBody) + EnemyCells(es'[..k]))
    {
      if k < |es| {
        assert es'[..k] == es[..k];
      }
    }
  }

  /**
   * One pass of Reset's enemy loop: a createEnemy call against `occupied`; a new
   * enemy joins the list and its cells are marked.
   */
  method AddEnemy(playerBody: seq<Position>, es: seq<Snake>, occupied: set<Position>)
    returns (es': seq<Snake>, occupied': set<Position>)
    requires Distinct(es) && EnemiesPlaced(es, playerBody)
    requires occupied == Cells(playerBody) + EnemyCells(es)
    ensures Distinct(es') && EnemiesPlaced(es', playerBody)
    ensures occupied' == Cells(playerBody) + EnemyCells(es')
    ensures es' == es || (|es'| == |es| + 1 && es'[..|es|] == es)
    ensures forall e | e in es' :: e in es || (fresh(e) && !e.isPlayer && e.Ok())
  {
    var enemy := CreateEnemy(occupied);
    if enemy == null {
      return es, occupied;
    }
    es', occupied' := Enlist(playerBody, es, occupied, enemy);
  }

  /** A placed enemy joins the list and its cells are marked as taken. */
  method Enlist(playerBody: seq<Position>, es: seq<Snake>, occupied: set<Position>, enemy: Snake)
    returns (es': seq<Snake>, occupied': set<Position>)
    requires Distinct(es) && EnemiesPlaced(es, playerBody) && enemy !in es
    requires occupied == Cells(playerBody) + EnemyCells(es)
    requires enemy.direction == DirLeft && Placeable(enemy.body, occupied)
    ensures Distinct(es') && EnemiesPlaced(es', playerBody)
    ensures occupied' == Cells(playerBody) + EnemyCells(es')
    ensures es' == es + [enemy]
  {
    es' := es + [enemy];
    PlacedExtend(es, enemy, playerBody);
    occupied' := MarkCells(occupied, enemy.body);
  }

  /** The head of `s` lands on `other`, a different snake with a body: on its head or another segment. */
  predicate EnemyHit(head: Position, s: Snake, other: Snake)
    reads other`body
  {
    other != s && |other.body| > 0 && (head == other.body[0] || HitsBody(head, other.body))
  }

  /** The index of the first snake of `es` that a head at `head` of snake `s` hits, or -1. */
  function FirstEnemyHit(head: Position, s: Snake, es: seq<Snake>): (k: int)
    reads es`body
    ensures -1 <= k < |es|
    ensures k == -1 <==> forall j | 0 <= j < |es| :: !EnemyHit(head, s, es[j])
    ensures k >= 0 ==> EnemyHit(head, s, es[k]) && forall j | 0 <= j < k :: !EnemyHit(head, s, es[j])
  {
    if |es| == 0 then -1
    else if EnemyHit(head, s, es[0]) then 0
    else
      var k := FirstEnemyHit(head, s, es[1..]);
      if k == -1 then -1 else k + 1
  }

  /** Which rule of checkInterSnakeCollisions applies to a snake's head. */
  datatype Collision =
    | NoCollision
      /** An enemy meets the player's head. */
    | PlayerHeadOn
      /** An enemy runs into the player's body. */
    | PlayerBody
      /** The snake meets the head of enemy `other`. */
    | HeadOn(other: Snake)
      /** The snake runs into the body of enemy `other`. */
    | BodyHit(other: Snake)

  /**
   * The collision the head of `s` is in, given player `p` and enemy list `es`: an
   * enemy is checked against the player first, then every snake against the
   * enemies in list order, a head-on meeting before a body hit.
   */
  function CollisionOf(s: Snake, p: Snake, es: seq<Snake>): Collision
    reads s`body, p`body, es`body
  {
    if |s.body| == 0 then NoCollision
    else
      var head := s.body[0];
      if !s.isPlayer && |p.body| > 0 && head == p.body[0] then PlayerHeadOn
      else if !s.isPlayer && |p.body| > 0 && HitsBody(head, p.body) then PlayerBody
      else
        var k := FirstEnemyHit(head, s, es);
        if k == -1 then NoCollision
        else if head == es[k].body[0] then HeadOn(es[k])
        else BodyHit(es[k])
  }

  /** The wall and self checks of a completed step: the head is outside the grid or on the body. */
  predicate Crashes(body: seq<Position>)
  {
    |body| > 0 && (!IsValid(body[0], GridWidth, GridHeight) || HitsBody(body[0], body))
  }

  /** The head of `s` passes the wall and self checks and meets no snake of `es`. */
  predicate Clear(s: Snake, es: seq<Snake>)
    reads s`body, es`body
  {
    !Crashes(s.body) && (|s.body| > 0 ==> FirstEnemyHit(s.body[0], s, es) == -1)
  }

  /** The grid steps a progress of `total` cells allows: its whole part, none when it is negative. */
  function WholeCells(total: real): (n: nat)
    ensures total >= 0.0 ==> n as real <= total < n as real + 1.0
    ensures total < 1.0 ==> n == 0
  {
    if total < 0.0 then 0 else total.Floor
  }

  /** The flash markers and score after snake of kind `byPlayer` eats `food` at time `now`. */
  function Fed(st: SessionStatus, byPlayer: bool, food: Food, now: int): SessionStatus
  {
    if byPlayer then st.(score := st.score + food.points, foodEatenPos := Some(food.pos), foodEatenTime := now)
    else st.(enemyFoodEatenPos := Some(food.pos))
  }

  /** The multiplier after eating food of kind `kind`: a speed kind installs its own. */
  function EffectFactor(kind: FoodType, factor: real): real
  {
    if kind == Standard then factor else FactorFor(kind)
  }

  /** The collisions that end the game: an enemy meeting the player's head, the player hitting an enemy. */
  predicate EndsGame(c: Collision, byPlayer: bool)
  {
    c.PlayerHeadOn? || (byPlayer && (c.HeadOn? || c.BodyHit?))
  }

  /** The enemy list after the reaction to collision `c` of snake `s`. */
  function Survivors(es: seq<Snake>, s: Snake, c: Collision): seq<Snake>
  {
    match c
    case NoCollision => es
    case PlayerHeadOn => RemoveAll(es, s)
    case PlayerBody => RemoveAll(es, s)
    case HeadOn(other) => if s.isPlayer then RemoveAll(es, other) else RemoveAll(RemoveAll(es, s), other)
    case BodyHit(_) => if s.isPlayer then es else RemoveAll(es, s)
  }

  /** The session's scalar state other than the game-over flag. */
  datatype SessionStatus = SessionStatus(score: int, speed: real, isPaused: bool,
                                         nextFoodSpawnTime: int, nextEnemySpawnTime: int,
                                         foodEatenPos: Option<Position>, foodEatenTime: int,
                                         enemyFoodEatenPos: Option<Position>)

  /** What GetState hands to the renderer, apart from the snakes themselves. */
  datatype View = View(score: int, isOver: bool, isPaused: bool, gridWidth: int, gridHeight: int,
                       playerSpeedFactor: real, speedEffectDuration: int, foodItems: seq<Food>,
                       foodEatenPos: Option<Position>, foodEatenTime: int,
                       enemyFoodEatenPos: Option<Position>)

  /** The delay TogglePause re-arms a speed timer with: one second over the truncated speed. */
  function ResumeDelay(speed: real, factor: real): int
    requires speed * factor >= 1.0
  {
    Second / (speed * factor).Floor
  }

  /**
   * At the base speed the re-armed timer fires 125 ms, 83.3 ms or 250 ms after a
   * resume (multiplier 1, 1.5 or 0.6: 8 * 0.6 truncates to 4), however much of the
   * seven-second effect was left.
   */
  lemma ResumeDelayValues()
    ensures ResumeDelay(InitialSpeed, 1.0) == 125 * Millisecond
    ensures ResumeDelay(InitialSpeed, SpeedUpFactor) == 83_333_333
    ensures ResumeDelay(InitialSpeed, SlowDownFactor) == 250 * Millisecond
    ensures forall f | KnownFactor(f) :: ResumeDelay(InitialSpeed, f) <= 250 * Millisecond < EffectDuration
  {
    assert (InitialSpeed * SlowDownFactor).Floor == 4;
  }

  class Game {
    var player: Snake?
    var enemies: seq<Snake>
    var foodItems: seq<Food>
    var score: int
    /** Base speed in cells per second. */
    var speed: real
    var isOver: bool
    var isPaused: bool
    var nextFoodSpawnTime: int
    var nextEnemySpawnTime: int
    /** Where the player last ate, while the flash lasts. */
    var foodEatenPos: Option<Position>
    var foodEatenTime: int
    /** Where an enemy last ate. */
    var enemyFoodEatenPos: Option<Position>

    /**
     * The session invariant: a player snake and enemy snakes that are all well formed,
     * no enemy listed twice, at most 50 food items each built by spawnFoodItem, the
     * base speed unchanged and a non-negative score.
     */
    ghost predicate Valid()
      reads this, player, enemies
    {
      && player != null && player.isPlayer && player.Ok()
      && (forall e | e in enemies :: !e.isPlayer && e.Ok())
      && Distinct(enemies)
      && |foodItems| <= MaxTotalFoodItems
      && (forall f | f in foodItems :: FoodOk(f))
      && speed == InitialSpeed
      && score >= 0
    }

    function Status(): SessionStatus
      reads this
    {
      SessionStatus(score, speed, isPaused, nextFoodSpawnTime, nextEnemySpawnTime,
             foodEatenPos, foodEatenTime, enemyFoodEatenPos)
    }

    /**
     * The progress of snake `s` once a frame of `deltaTime` seconds at a base speed of
     * `rate` cells per second is added to it.
     */
    function Accrued(s: Snake, rate: real, deltaTime: real): real
      reads s
    {
      s.moveProgress + s.speedFactor * rate * deltaTime
    }

    /**
     * Snake `s` has had its progress for a frame of `deltaTime` seconds, `steps` grid
     * steps, between the state before it and now: its progress is the frame's accrual
     * less one cell per step, and while it is still in play in a game not over, those
     * steps are all the whole cells accrued and less than one cell is left.
     */
    twostate predicate TookTurn(s: Snake, steps: nat, deltaTime: real)
      reads this, s
    {
      Moved(s, old(Accrued(s, speed, deltaTime)), steps)
    }

    /**
     * Snake `s` has made `steps` grid steps out of an accrued progress of `accrued`
     * cells: one cell less per step, and while it is in play in a game not over,
     * every whole cell was used and less than one is left.
     */
    ghost predicate Moved(s: Snake, accrued: real, steps: nat)
      reads this, s
    {
      && s.moveProgress == accrued - steps as real
      && (!isOver && (s.isPlayer || s in enemies) ==> s.moveProgress < 1.0 && steps == WholeCells(accrued))
    }

    /** The cells spawnFoodItem and spawnEnemyIfPossible treat as taken: snakes and food. */
    function Occupied(): set<Position>
      reads this, player, enemies
    {
      (if player != null then Cells(player.body) else {}) + EnemyCells(enemies) + FoodCells(foodItems)
    }

    /** A cell no snake's body covers. */
    ghost predicate OffSnakes(p: Position)
      reads this, player, enemies
    {
      && (player != null ==> p !in Cells(player.body))
      && forall e | e in enemies :: p !in Cells(e.body)
    }

    /** A cell outside the occupancy set is off every snake and off every food item. */
    lemma FreeCell(p: Position)
      requires p !in Occupied()
      ensures OffSnakes(p) && p !in FoodCells(foodItems)
    {
      EnemyCellsMembers(enemies, p);
    }

    /** The occupancy set spawnFoodItem and spawnEnemyIfPossible build, segment by segment. */
    method OccupiedCells() returns (occupied: set<Position>)
      ensures occupied == Occupied()
    {
      occupied := {};
      if player != null {
        occupied := MarkCells(occupied, player.body);
      }
      ghost var base := occupied;
      for i := 0 to |enemies|
        invariant occupied == base + EnemyCells(enemies[..i])
      {
        assert enemies[..i + 1][..i] == enemies[..i];
        occupied := MarkCells(occupied, enemies[i].body);
      }
      assert enemies[..|enemies|] == enemies;
      ghost var snakes := occupied;
      for i := 0 to |foodItems|
        invariant occupied == snakes + FoodCells(foodItems[..i])
      {
        assert foodItems[..i + 1] == foodItems[..i] + [foodItems[i]];
        occupied := occupied + {foodItems[i].pos};
      }
      assert foodItems[..|foodItems|] == foodItems;
    }

    /** isSnakeAlive: the player always counts as alive; an enemy while it is listed. */
    method IsSnakeAlive(snake: Snake) returns (alive: bool)
      ensures alive == (snake.isPlayer || snake in enemies)
    {
      if snake.isPlayer {
        return true;
      }
      for i := 0 to |enemies|
        invariant forall k | 0 <= k < i :: enemies[k] != snake
      {
        if enemies[i] == snake {
          return true;
        }
      }
      return false;
    }

    /** removeEnemySnake: filters the snake out of the enemy list, keeping the others in order. */
    method RemoveEnemySnake(snakeToRemove: Snake)
      requires Valid()
      modifies this
      ensures Valid()
      ensures enemies == RemoveAll(old(enemies), snakeToRemove)
      ensures snakeToRemove !in enemies && forall e :: e in enemies <==> e in old(enemies) && e != snakeToRemove
      ensures player == old(player) && foodItems == old(foodItems)
      ensures isOver == old(isOver) && Status() == old(Status())
    {
      var kept: seq<Snake> := [];
      for i := 0 to |enemies|
        invariant kept == RemoveAll(enemies[..i], snakeToRemove)
      {
        assert enemies[..i + 1][..i] == enemies[..i];
        if enemies[i] != snakeToRemove {
          kept := kept + [enemies[i]];
        }
      }
      assert enemies[..|enemies|] == enemies;
      RemoveAllMembers(enemies, snakeToRemove);
      RemoveAllDistinct(enemies, snakeToRemove);
      enemies := kept;
    }

    /** triggerGameOver: sets the flag and stops the player's speed timer. */
    method TriggerGameOver()
      requires Valid()
      modifies this, player
      ensures Valid()
      ensures isOver
      ensures player == old(player) && player.speedTimer == StopTimer(old(player.speedTimer))
      ensures player.Shape() == old(player.Shape()) && player.speedEffectEndTime == old(player.speedEffectEndTime)
      ensures enemies == old(enemies) && foodItems == old(foodItems) && Status() == old(Status())
    {
      isOver := true;
      if player != null && player.speedTimer != NoTimer {
        player.speedTimer := StopTimer(player.speedTimer);
      }
    }

    /**
     * HandleInput: buffers the player's next direction unless it reverses the
     * committed one. DirNone is accepted (the scene never passes it).
     */
    method HandleInput(newDir: Direction)
      requires Valid()
      modifies player
      ensures Valid()
      ensures player.nextDir == if IsReverse(newDir, old(player.direction)) then old(player.nextDir) else newDir
      ensures player.body == old(player.body) && player.prevBody == old(player.prevBody)
      ensures player.direction == old(player.direction) && player.speedFactor == old(player.speedFactor)
      ensures player.moveProgress == old(player.moveProgress) && player.speedTimer == old(player.speedTimer)
    {
      var currentDir := player.direction;
      var isValidMove := true;
      match newDir {
        case DirUp => if currentDir == DirDown { isValidMove := false; }
        case DirDown => if currentDir == DirUp { isValidMove := false; }
        case DirLeft => if currentDir == DirRight { isValidMove := false; }
        case DirRight => if currentDir == DirLeft { isValidMove := false; }
        case DirNone =>
      }
      if isValidMove {
        player.nextDir := newDir;
      }
    }

    /**
     * TogglePause at time `now`: pausing stops the player's speed timer; resuming
     * re-arms a non-nil timer to fire ResumeDelay after `now`.
     */
    method TogglePause(now: int)
      requires Valid()
      modifies this, player
      ensures Valid()
      ensures isPaused == !old(isPaused)
      ensures isPaused ==> player.speedTimer == StopTimer(old(player.speedTimer))
      ensures !isPaused ==>
        player.speedTimer == if old(player.speedTimer).NoTimer? then NoTimer
                             else Armed(now + ResumeDelay(speed, player.speedFactor))
      ensures player == old(player) && player.Shape() == old(player.Shape())
      ensures player.speedEffectEndTime == old(player.speedEffectEndTime)
      ensures enemies == old(enemies) && foodItems == old(foodItems) && isOver == old(isOver)
      ensures score == old(score) && speed == old(speed)
    {
      isPaused := !isPaused;
      if isPaused {
        if player != null && player.speedTimer != NoTimer {
          player.speedTimer := StopTimer(player.speedTimer);
        }
      } else {
        if player != null && player.speedTimer != NoTimer {
          player.speedTimer := Armed(now + Second / (speed * player.speedFactor).Floor);
        }
      }
    }

    /**
     * GetState at time `now`: clears the player's food flash once more than 150 ms
     * have passed since it was set, then reports the session state.
     */
    method GetState(now: int) returns (view: View)
      modifies this
      ensures foodEatenPos ==
        if old(foodEatenPos).Some? && now - foodEatenTime > FoodFlashDuration then None else old(foodEatenPos)
      ensures view == View(score, isOver, isPaused, GridWidth, GridHeight,
                           if player != null then player.speedFactor else 1.0, 0, foodItems,
                           foodEatenPos, foodEatenTime, enemyFoodEatenPos)
      ensures player == old(player) && enemies == old(enemies) && foodItems == old(foodItems)
      ensures score == old(score) && speed == old(speed) && isOver == old(isOver) && isPaused == old(isPaused)
      ensures foodEatenTime == old(foodEatenTime) && enemyFoodEatenPos == old(enemyFoodEatenPos)
      ensures nextFoodSpawnTime == old(nextFoodSpawnTime) && nextEnemySpawnTime == old(nextEnemySpawnTime)
    {
      var remainingDuration := 0;
      var speedFactor := 1.0;
      if player != null {
        speedFactor := player.speedFactor;
      }
      if foodEatenPos.Some? && now - foodEatenTime > FoodFlashDuration {
        foodEatenPos := None;
      }
      view := View(score, isOver, isPaused, GridWidth, GridHeight, speedFactor, remainingDuration,
                   foodItems, foodEatenPos, foodEatenTime, enemyFoodEatenPos);
    }

    /**
     * spawnFoodItem: below the cap of 50, draws a kind and up to twice as many random
     * cells as there are free ones, and appends an item on the first free cell drawn;
     * appends nothing when the board is full or every draw was taken.
     */
    method SpawnFoodItem()
      requires Valid()
      modifies this
      ensures Valid()
      ensures old(|foodItems|) >= MaxTotalFoodItems ==> foodItems == old(foodItems)
      ensures foodItems == old(foodItems) ||
        (|foodItems| == old(|foodItems|) + 1 && foodItems[..old(|foodItems|)] == old(foodItems) &&
         var f := foodItems[old(|foodItems|)];
         FoodOk(f) && OffSnakes(f.pos) && f.pos !in FoodCells(old(foodItems)))
      ensures player == old(player) && enemies == old(enemies)
      ensures isOver == old(isOver) && Status() == old(Status())
    {
      if |foodItems| >= MaxTotalFoodItems {
        return;
      }
      var occupied := OccupiedCells();
      var r: real :| 0.0 <= r < 1.0;
      var foodType := FoodTypeFor(r);
      var points := PointsFor(foodType);
      var duration := DurationFor(foodType);

      var newPos := Position(0, 0);
      var attempts := 0;
      var maxAttempts := GridWidth * GridHeight - |occupied|;
      if maxAttempts <= 0 {
        return;
      }
      while attempts < maxAttempts * 2
        invariant 0 <= attempts <= maxAttempts * 2
        invariant attempts > 0 ==> IsValid(newPos, GridWidth, GridHeight)
      {
        var x: int :| 0 <= x < GridWidth;
        var y: int :| 0 <= y < GridHeight;
        newPos := Position(x, y);
        if newPos !in occupied {
          break;
        }
        attempts := attempts + 1;
      }
      if newPos in occupied {
        return;
      }
      FreeCell(newPos);
      foodItems := foodItems + [Food(newPos, foodType, points, duration)];
    }

    /**
     * spawnEnemyIfPossible: below three enemies, tries createEnemy against every
     * occupied cell and appends the new enemy when one was placed.
     */
    method SpawnEnemyIfPossible()
      requires Valid()
      modifies this
      ensures Valid()
      ensures old(|enemies|) >= MaxEnemySnakes ==> enemies == old(enemies)
      ensures enemies == old(enemies) ||
        (old(|enemies|) < MaxEnemySnakes && |enemies| == old(|enemies|) + 1 &&
         enemies[..old(|enemies|)] == old(enemies) &&
         var e := enemies[old(|enemies|)];
         fresh(e) && e.direction == DirLeft && Placeable(e.body, old(Occupied())) &&
         e.Shape() == SnakeShape(e.body, e.body, DirLeft, DirLeft, 1.0, 0.0))
      ensures player == old(player) && foodItems == old(foodItems)
      ensures isOver == old(isOver) && Status() == old(Status())
    {
      if |enemies| < MaxEnemySnakes {
        var occupied := OccupiedCells();
        var newEnemy := CreateEnemy(occupied);
        if newEnemy != null {
          enemies := enemies + [newEnemy];
        }
      }
    }

    /**
     * Reset at time `now`: a new player at the left, up to two enemies placed clear of
     * the player and of each other, up to three food items clear of every snake and of
     * each other, score zero, flags and flash markers cleared, and both spawn timers
     * scheduled from `now`.
     */
    method Reset(now: int)
      modifies this
      ensures Valid()
      ensures fresh(player) && player.speedTimer == NoTimer
      ensures player.Shape() == SnakeShape(PlayerStartBody(), PlayerStartBody(), DirRight, DirRight, 1.0, 0.0)
      ensures |enemies| <= NumEnemySnakes && EnemiesPlaced(enemies, player.body)
      ensures forall e | e in enemies :: fresh(e)
      ensures |foodItems| <= InitialFoodItems && FoodClear()
      ensures !isOver
      ensures Status() == SessionStatus(0, InitialSpeed, false, now + FoodSpawnInterval, now + EnemySpawnInterval,
                                        None, ZeroTime, None)
    {
      var p := new Snake(PlayerStartBody(), DirRight, true);
      var es := CreateInitialEnemies(p.body);
      StartRound(p, es, now);
    }

    /**
     * The rest of Reset at time `now`, once its snakes exist: the session state is
     * cleared, the initial food is spawned and both spawn timers are scheduled.
     */
    method StartRound(p: Snake, es: seq<Snake>, now: int)
      requires p.isPlayer && p.Ok() && Distinct(es) && forall e | e in es :: !e.isPlayer && e.Ok()
      modifies this
      ensures Valid() && player == p && enemies == es && !isOver
      ensures |foodItems| <= InitialFoodItems && FoodClear()
      ensures Status() == SessionStatus(0, InitialSpeed, false, now + FoodSpawnInterval, now + EnemySpawnInterval,
                                        None, ZeroTime, None)
    {
      ClearRound(p, es);
      SpawnInitialFood();
      nextFoodSpawnTime := now + FoodSpawnInterval;
      nextEnemySpawnTime := now + EnemySpawnInterval;
    }

    /** The state Reset installs before spawning food: the given snakes, no food, everything cleared. */
    method ClearRound(p: Snake, es: seq<Snake>)
      requires p.isPlayer && p.Ok() && Distinct(es) && forall e | e in es :: !e.isPlayer && e.Ok()
      modifies this
      ensures Valid() && player == p && enemies == es && foodItems == [] && !isOver
      ensures score == 0 && speed == InitialSpeed && !isPaused
      ensures foodEatenPos == None && foodEatenTime == ZeroTime && enemyFoodEatenPos == None
    {
      player, enemies := p, es;
      score, speed, isOver, isPaused := 0, InitialSpeed, false, false;
      foodItems, foodEatenPos, foodEatenTime, enemyFoodEatenPos := [], None, ZeroTime, None;
    }

    /** Each food item lies off every snake and on a cell no earlier item takes. */
    ghost predicate FoodClear()
      reads this, player, enemies
    {
      forall k | 0 <= k < |foodItems| ::
        OffSnakes(foodItems[k].pos) && foodItems[k].pos !in FoodCells(foodItems[..k])
    }

    /** The three spawnFoodItem calls of Reset, on a board without food. */
    method SpawnInitialFood()
      requires Valid() && foodItems == []
      modifies this
      ensures Valid() && |foodItems| <= InitialFoodItems && FoodClear()
      ensures player == old(player) && enemies == old(enemies)
      ensures isOver == old(isOver) && Status() == old(Status())
    {
      for i := 0 to InitialFoodItems
        invariant Valid() && |foodItems| <= i && FoodClear()
        invariant player == old(player) && enemies == old(enemies)
        invariant isOver == old(isOver) && Status() == old(Status())
      {
        ghost var before := foodItems;
        SpawnFoodItem();
        if foodItems != before {
          assert foodItems[..|before|] == before;
        }
      }
    }

    /** NewGame at time `now`: the base speed, no food, then Reset. */
    constructor (now: int)
      ensures Valid()
      ensures fresh(player) && player.Shape() == SnakeShape(PlayerStartBody(), PlayerStartBody(), DirRight, DirRight, 1.0, 0.0)
      ensures |enemies| <= NumEnemySnakes && |foodItems| <= InitialFoodItems && !isOver
      ensures Status() == SessionStatus(0, InitialSpeed, false, now + FoodSpawnInterval, now + EnemySpawnInterval,
                                        None, ZeroTime, None)
    {
      player := null;
      enemies := [];
      foodItems := [];
      score := 0;
      speed := InitialSpeed;
      isOver := false;
      isPaused := false;
      nextFoodSpawnTime := ZeroTime;
      nextEnemySpawnTime := ZeroTime;
      foodEatenPos := None;
      foodEatenTime := ZeroTime;
      enemyFoodEatenPos := None;
      new;
      Reset(now);
    }

    /**
     * updateEnemyAI: with food on the board, buffers the steering rule's direction
     * towards the first food item; without food, keeps the committed direction.
     */
    method UpdateEnemyAI(s: Snake)
      requires |foodItems| > 0 ==> |s.body| > 0
      modifies s
      ensures s.body == old(s.body) && s.prevBody == old(s.prevBody) && s.direction == old(s.direction)
      ensures s.nextDir == if |foodItems| > 0 then EnemyDesiredDir(foodItems[0].pos, s.body[0], s.direction)
                           else s.direction
      ensures !IsReverse(s.nextDir, s.direction)
      ensures s.speedFactor == old(s.speedFactor) && s.moveProgress == old(s.moveProgress)
      ensures s.speedTimer == old(s.speedTimer) && s.speedEffectEndTime == old(s.speedEffectEndTime)
    {
      if |foodItems| > 0 {
        var target := foodItems[0].pos;
        var head := s.body[0];
        s.nextDir := EnemyDesiredDir(target, head, s.direction);
      } else {
        s.nextDir := s.direction;
      }
    }

    /**
     * The food list after a replacement spawn, given the list `before` it: the same,
     * or one item appended that spawnFoodItem could build, off every snake and off
     * every earlier item.
     */
    ghost predicate Replenished(before: seq<Food>)
      reads this, player, enemies
    {
      || foodItems == before
      || (&& |foodItems| == |before| + 1 && foodItems[..|before|] == before
          && var g := foodItems[|before|];
             FoodOk(g) && OffSnakes(g.pos) && g.pos !in FoodCells(before))
    }

    /**
     * The first half of eating `food`: the player scores its points, and the item's
     * effect is applied to `s`.
     */
    method Nourish(s: Snake, food: Food, now: int)
      requires Valid() && (s == player || s in enemies) && FoodOk(food)
      modifies this, s
      ensures Valid()
      ensures player == old(player) && enemies == old(enemies) && isOver == old(isOver) && foodItems == old(foodItems)
      ensures Status() == old(Status()).(score := old(score) + if s.isPlayer then food.points else 0)
      ensures s.Shape() == old(s.Shape()).(body := Grown(old(s.body)), prevBody := Grown(old(s.prevBody)),
                                           speedFactor := EffectFactor(food.kind, old(s.speedFactor)))
      ensures food.kind == Standard ==>
        s.speedTimer == old(s.speedTimer) && s.speedEffectEndTime == old(s.speedEffectEndTime)
      ensures food.kind != Standard ==>
        s.speedTimer == Armed(now + EffectDuration) && s.speedEffectEndTime == now + EffectDuration
    {
      if s.isPlayer {
        score := score + food.points;
      }
      ApplyEffect(s, food.kind, now);
      assert s.Ok();
    }

    /**
     * What eating `food` does for snake `s` (the body of the food scan's match):
     * the player scores its points, its effect is applied, a replacement is spawned
     * and the player's or the enemies' flash marker is set to the item's cell.
     */
    method Eat(s: Snake, food: Food, now: int)
      requires Valid() && (s == player || s in enemies) && FoodOk(food)
      modifies this, s
      ensures Valid() && Replenished(old(foodItems))
      ensures player == old(player) && enemies == old(enemies) && isOver == old(isOver)
      ensures Status() == Fed(old(Status()), s.isPlayer, food, now)
      ensures s.Shape() == old(s.Shape()).(body := Grown(old(s.body)), prevBody := Grown(old(s.prevBody)),
                                           speedFactor := EffectFactor(food.kind, old(s.speedFactor)))
      ensures food.kind == Standard ==>
        s.speedTimer == old(s.speedTimer) && s.speedEffectEndTime == old(s.speedEffectEndTime)
      ensures food.kind != Standard ==>
        s.speedTimer == Armed(now + EffectDuration) && s.speedEffectEndTime == now + EffectDuration
    {
      Nourish(s, food, now);
      SpawnFoodItem();
      var pos := food.pos;
      if s.isPlayer {
        foodEatenPos := Some(pos);
        foodEatenTime := now;
      } else {
        enemyFoodEatenPos := Some(pos);
      }
    }

    /**
     * The food scan of a finalised step, for snake `s` whose head moves to `newHead`:
     * the first item on `newHead`, if any, is eaten.
     */
    method EatAt(s: Snake, newHead: Position, now: int) returns (ateFoodIndex: int)
      requires Valid() && (s == player || s in enemies)
      modifies this, s
      ensures Valid()
      ensures player == old(player) && enemies == old(enemies) && isOver == old(isOver) && score >= old(score)
      ensures ateFoodIndex == FirstFoodAt(old(foodItems), newHead) && |old(foodItems)| <= |foodItems|
      ensures ateFoodIndex == -1 ==>
        foodItems == old(foodItems) && Status() == old(Status()) &&
        s.Shape() == old(s.Shape()) && s.speedTimer == old(s.speedTimer) &&
        s.speedEffectEndTime == old(s.speedEffectEndTime)
      ensures ateFoodIndex >= 0 ==>
        var f := old(foodItems)[ateFoodIndex];
        && FoodOk(f) && Replenished(old(foodItems))
        && Status() == Fed(old(Status()), s.isPlayer, f, now)
        && s.Shape() == old(s.Shape()).(body := Grown(old(s.body)), prevBody := Grown(old(s.prevBody)),
                                        speedFactor := EffectFactor(f.kind, old(s.speedFactor)))
        && (f.kind == Standard ==>
              s.speedTimer == old(s.speedTimer) && s.speedEffectEndTime == old(s.speedEffectEndTime))
        && (f.kind != Standard ==>
              s.speedTimer == Armed(now + EffectDuration) && s.speedEffectEndTime == now + EffectDuration)
    {
      ateFoodIndex := -1;
      var items := foodItems;
      var i := 0;
      while i < |items|
        invariant 0 <= i <= |items| && ateFoodIndex == -1
        invariant forall k | 0 <= k < i :: items[k].pos != newHead
        invariant foodItems == items && unchanged(this) && unchanged(s)
      {
        var food := items[i];
        if newHead == food.pos {
          ateFoodIndex := i;
          assert food in items;
          Eat(s, food, now);
          break;
        }
        i := i + 1;
      }
    }

    /**
     * The start of a finalised step: the body is recorded as the previous body and
     * the buffered direction is committed; `newHead` is the cell the head moves to.
     */
    method CommitStep(s: Snake) returns (newHead: Position)
      requires Valid() && (s == player || s in enemies)
      modifies s
      ensures Valid()
      ensures s.Shape() == old(s.Shape()).(prevBody := old(s.body), direction := old(s.nextDir))
      ensures s.speedTimer == old(s.speedTimer) && s.speedEffectEndTime == old(s.speedEffectEndTime)
      ensures newHead == Shift(old(s.body)[0], old(s.nextDir))
    {
      s.prevBody := s.body;
      s.direction := s.nextDir;
      var head := s.body[0];
      newHead := Shift(head, s.direction);
    }

    /**
     * The end of a finalised step: the head is prepended and the last segment
     * dropped, then the eaten item, if any, is removed by its index.
     */
    method Settle(s: Snake, newHead: Position, ateFoodIndex: int)
      requires Valid() && (s == player || s in enemies) && -1 <= ateFoodIndex < |foodItems|
      modifies this, s
      ensures Valid()
      ensures s.Shape() == old(s.Shape()).(body := [newHead] + old(s.body)[..|old(s.body)| - 1])
      ensures s.speedTimer == old(s.speedTimer) && s.speedEffectEndTime == old(s.speedEffectEndTime)
      ensures foodItems == if ateFoodIndex == -1 then old(foodItems) else RemoveAt(old(foodItems), ateFoodIndex)
      ensures player == old(player) && enemies == old(enemies) && isOver == old(isOver) && Status() == old(Status())
    {
      var newBody := [newHead] + s.body[..|s.body| - 1];
      s.body := newBody;
      if ateFoodIndex != -1 {
        foodItems := RemoveAt(foodItems, ateFoodIndex);
      }
    }

    /**
     * Step 1 of a completed grid move (updateSnakeProgress): the previous body is
     * recorded, the buffered direction is committed, the head moves one cell that
     * way, food there is eaten (the snake keeps its tail) and removed by index,
     * and otherwise the tail is dropped.
     */
    method FinalizeStep(s: Snake, now: int) returns (ateFoodIndex: int)
      requires Valid() && (s == player || s in enemies)
      modifies this, s
      ensures Valid()
      ensures player == old(player) && enemies == old(enemies) && isOver == old(isOver) && score >= old(score)
      ensures var newHead := Shift(old(s.body)[0], old(s.nextDir));
        && ateFoodIndex == FirstFoodAt(old(foodItems), newHead)
        && s.body == [newHead] + (if ateFoodIndex == -1 then old(s.body)[..|old(s.body)| - 1] else old(s.body))
        && s.prevBody == (if ateFoodIndex == -1 then old(s.body) else Grown(old(s.body)))
      ensures s.direction == old(s.nextDir) && s.nextDir == old(s.nextDir) && s.moveProgress == old(s.moveProgress)
      ensures ateFoodIndex == -1 ==> foodItems == old(foodItems) && Status() == old(Status())
      ensures ateFoodIndex >= 0 ==>
        && Status() == Fed(old(Status()), s.isPlayer, old(foodItems)[ateFoodIndex], now)
        && |old(foodItems)| - 1 <= |foodItems| <= |old(foodItems)|
        && foodItems[..|old(foodItems)| - 1] == RemoveAt(old(foodItems), ateFoodIndex)
    {
      var newHead := CommitStep(s);
      ghost var before := foodItems;
      ateFoodIndex := EatAt(s, newHead, now);
      ghost var spawned := foodItems;
      Settle(s, newHead, ateFoodIndex);
      if ateFoodIndex != -1 {
        assert foodItems[..|before| - 1] == RemoveAt(before, ateFoodIndex) by {
          RemoveAtPrefix(spawned, |before|, ateFoodIndex);
        }
      }
    }

    /**
     * The tests of checkInterSnakeCollisions for snake `s`, in their order: for an
     * enemy, the player's head and then its body; then every other enemy with a body,
     * in list order, its head before the rest of its body. The result is the
     * collision CollisionOf describes.
     */
    method FindCollision(s: Snake) returns (c: Collision)
      requires Valid()
      ensures c == CollisionOf(s, player, enemies)
    {
      if |s.body| == 0 {
        return NoCollision;
      }
      var head := s.body[0];
      if !s.isPlayer && player != null && |player.body| > 0 {
        var playerHead := player.body[0];
        if head == playerHead {
          return PlayerHeadOn;
        }
        var onBody := ScanBody(head, player.body);
        if onBody {
          return PlayerBody;
        }
      }
      var others := enemies;
      var i := 0;
      while i < |others|
        invariant 0 <= i <= |others| && others == enemies
        invariant forall j | 0 <= j < i :: !EnemyHit(head, s, others[j])
      {
        var other := others[i];
        if s == other || |other.body| == 0 {
          i := i + 1;
          continue;
        }
        var otherHead := other.body[0];
        if head == otherHead {
          return HeadOn(other);
        }
        var onBody := ScanBody(head, other.body);
        if onBody {
          return BodyHit(other);
        }
        i := i + 1;
      }
      return NoCollision;
    }

    /**
     * The reaction of checkInterSnakeCollisions to collision `c` of snake `s`: an
     * enemy meeting the player head-on ends the game and dies; an enemy hitting the
     * player's body dies; the player meeting an enemy head-on ends the game and kills
     * that enemy; the player hitting an enemy's body ends the game; two enemies
     * meeting head-on both die; an enemy hitting another's body dies. Afterwards the
     * game is over or `s` is an enemy that is gone.
     */
    method React(s: Snake, c: Collision)
      requires Valid() && c == CollisionOf(s, player, enemies) && !c.NoCollision?
      modifies this, player
      ensures Valid()
      ensures isOver == (old(isOver) || EndsGame(c, s.isPlayer))
      ensures enemies == Survivors(old(enemies), s, c)
      ensures isOver || (!s.isPlayer && s !in enemies)
      ensures forall e | e in enemies :: e in old(enemies)
      ensures player == old(player) && player.Shape() == old(player.Shape())
      ensures player.speedTimer == (if EndsGame(c, s.isPlayer) then StopTimer(old(player.speedTimer)) else old(player.speedTimer))
      ensures foodItems == old(foodItems) && Status() == old(Status())
    {
      match c {
        case PlayerHeadOn =>
          TriggerGameOver();
          RemoveEnemySnake(s);
        case PlayerBody =>
          RemoveEnemySnake(s);
        case HeadOn(other) =>
          if s.isPlayer {
            TriggerGameOver();
            RemoveEnemySnake(other);
          } else {
            RemoveEnemySnake(s);
            RemoveEnemySnake(other);
          }
        case BodyHit(other) =>
          if s.isPlayer {
            TriggerGameOver();
          } else {
            RemoveEnemySnake(s);
          }
      }
    }

    /**
     * checkInterSnakeCollisions for snake `s`: finds the collision CollisionOf
     * describes and applies its reaction; reports whether there was one.
     */
    method CheckInterSnakeCollisions(s: Snake) returns (hit: bool)
      requires Valid()
      modifies this, player
      ensures Valid()
      ensures var c := old(CollisionOf(s, player, enemies));
        && hit == !c.NoCollision?
        && isOver == (old(isOver) || EndsGame(c, s.isPlayer))
        && enemies == Survivors(old(enemies), s, c)
        && player.speedTimer == (if EndsGame(c, s.isPlayer) then StopTimer(old(player.speedTimer)) else old(player.speedTimer))
      ensures hit ==> isOver || (!s.isPlayer && s !in enemies)
      ensures forall e | e in enemies :: e in old(enemies)
      ensures player == old(player) && player.Shape() == old(player.Shape())
      ensures foodItems == old(foodItems) && Status() == old(Status())
    {
      var c := FindCollision(s);
      if c.NoCollision? {
        return false;
      }
      React(s, c);
      return true;
    }

    /**
     * What a snake's movement keeps, between the state before it and the state after
     * it: the same player, pause state and spawn schedule; the score only grows, a
     * game over stays over, and no enemy joins the list.
     */
    twostate predicate Progressed()
      reads this
    {
      && player == old(player) && score >= old(score) && (old(isOver) ==> isOver)
      && (forall e | e in enemies :: e in old(enemies))
      && isPaused == old(isPaused)
      && nextFoodSpawnTime == old(nextFoodSpawnTime) && nextEnemySpawnTime == old(nextEnemySpawnTime)
    }

    /**
     * A wall or self hit of snake `s`: the player's ends the game, an enemy's removes
     * it.
     */
    method Crash(s: Snake)
      requires Valid() && (s == player || s in enemies)
      modifies this, player
      ensures Valid() && Progressed()
      ensures s.isPlayer ==> isOver && enemies == old(enemies)
      ensures !s.isPlayer ==> isOver == old(isOver) && enemies == RemoveAll(old(enemies), s) && s !in enemies
      ensures player.Shape() == old(player.Shape()) && s.Shape() == old(s.Shape())
      ensures foodItems == old(foodItems) && Status() == old(Status())
    {
      if s.isPlayer {
        TriggerGameOver();
      } else {
        RemoveEnemySnake(s);
      }
    }

    /**
     * Step 2 of a completed grid move of updateSnakeProgress: the wall and self
     * checks, whose hit is a Crash, then the inter-snake checks. `stop` reports that
     * the snake's turn ends here, which it does only when the game is over or the
     * snake is an enemy that is gone.
     */
    method CheckStep(s: Snake) returns (stop: bool)
      requires Valid() && (s == player || s in enemies)
      modifies this, player
      ensures Valid() && Progressed()
      ensures s.Shape() == old(s.Shape()) && player.Shape() == old(player.Shape())
      ensures foodItems == old(foodItems) && Status() == old(Status())
      ensures Crashes(s.body) ==> stop
      ensures Crashes(s.body) && s.isPlayer ==> isOver && enemies == old(enemies)
      ensures Crashes(s.body) && !s.isPlayer ==> isOver == old(isOver) && enemies == RemoveAll(old(enemies), s)
      ensures !Crashes(s.body) ==>
        var c := CollisionOf(s, player, old(enemies));
        && stop == !c.NoCollision?
        && isOver == (old(isOver) || EndsGame(c, s.isPlayer))
        && enemies == Survivors(old(enemies), s, c)
      ensures stop ==> isOver || (!s.isPlayer && s !in enemies)
      ensures !stop ==> s == player || s in enemies
    {
      var hitWall, hitSelf := s.CheckCollision(GridWidth, GridHeight);
      if hitWall || hitSelf {
        Crash(s);
        return true;
      }
      stop := Collide(s);
    }

    /**
     * The inter-snake half of CheckStep: the collision's reaction, after which the
     * snake's turn ends exactly when there was a collision. No body changes, so the
     * collision is stated in the new state, over the enemy list as it was.
     */
    method Collide(s: Snake) returns (stop: bool)
      requires Valid() && (s == player || s in enemies)
      modifies this, player
      ensures Valid() && Progressed()
      ensures s.Shape() == old(s.Shape()) && player.Shape() == old(player.Shape())
      ensures foodItems == old(foodItems) && Status() == old(Status())
      ensures var c := CollisionOf(s, player, old(enemies));
        && stop == !c.NoCollision?
        && isOver == (old(isOver) || EndsGame(c, s.isPlayer))
        && enemies == Survivors(old(enemies), s, c)
      ensures stop ==> isOver || (!s.isPlayer && s !in enemies)
      ensures !stop ==> s == player || s in enemies
    {
      ghost var c := CollisionOf(s, player, enemies);
      var collided := CheckInterSnakeCollisions(s);
      assert c == CollisionOf(s, player, old(enemies));
      stop := false;
      if collided {
        var alive := IsSnakeAlive(s);
        if isOver || !alive {
          stop := true;
        }
      }
    }

    /**
     * The finalised step of snake `s` at time `now`, between the state before it and
     * the state after it: the buffered direction is committed and the head moves one
     * cell that way; on the first food item there the snake keeps its tail, the item
     * is removed and its points and flash recorded (a replacement may be appended);
     * otherwise the tail is dropped and the food and session are as they were.
     */
    twostate predicate Stepped(s: Snake, now: int)
      reads this, s
    {
      && |old(s.body)| > 0
      && s.direction == old(s.nextDir) && s.nextDir == old(s.nextDir)
      && var newHead := Shift(old(s.body)[0], old(s.nextDir));
         var ate := FirstFoodAt(old(foodItems), newHead);
         && s.body == [newHead] + (if ate == -1 then old(s.body)[..|old(s.body)| - 1] else old(s.body))
         && s.prevBody == (if ate == -1 then old(s.body) else Grown(old(s.body)))
         && (ate == -1 ==> foodItems == old(foodItems) && Status() == old(Status()))
         && (ate >= 0 ==>
               && Status() == Fed(old(Status()), s.isPlayer, old(foodItems)[ate], now)
               && |old(foodItems)| - 1 <= |foodItems| <= |old(foodItems)|
               && foodItems[..|old(foodItems)| - 1] == RemoveAt(old(foodItems), ate))
    }

    /**
     * One completed grid move of updateSnakeProgress: the finalised step, then its
     * checks on the moved snake. The new body, previous body, food and score are
     * FinalizeStep's; the game-over flag and the enemy list are the wall and self
     * checks' (Crashes) or else the inter-snake collision's.
     */
    method Advance(s: Snake, now: int) returns (stop: bool)
      requires Valid() && (s == player || s in enemies)
      modifies this, s, player
      ensures Valid() && Progressed() && Stepped(s, now) && s.moveProgress == old(s.moveProgress)
      ensures s != player ==> player.Shape() == old(player.Shape())
      ensures Crashes(s.body) ==> stop
      ensures Crashes(s.body) && s.isPlayer ==> isOver && enemies == old(enemies)
      ensures Crashes(s.body) && !s.isPlayer ==> isOver == old(isOver) && enemies == RemoveAll(old(enemies), s)
      ensures !Crashes(s.body) ==>
        var c := CollisionOf(s, player, old(enemies));
        && stop == !c.NoCollision?
        && isOver == (old(isOver) || EndsGame(c, s.isPlayer))
        && enemies == Survivors(old(enemies), s, c)
      ensures stop ==> isOver || (!s.isPlayer && s !in enemies)
      ensures !stop ==> s == player || s in enemies
      ensures s.isPlayer && !isOver ==> Clear(s, enemies) && enemies == old(enemies)
    {
      var ateFoodIndex := FinalizeStep(s, now);
      stop := CheckStep(s);
    }

    /** Adds `amount` cells to a snake's progress: a frame's movement, or minus the cell a grid move uses up. */
    method AddProgress(s: Snake, amount: real)
      requires Valid() && (s == player || s in enemies)
      modifies s
      ensures Valid()
      ensures s.Shape() == old(s.Shape()).(moveProgress := old(s.moveProgress) + amount)
      ensures s.speedTimer == old(s.speedTimer) && s.speedEffectEndTime == old(s.speedEffectEndTime)
    {
      s.moveProgress := s.moveProgress + amount;
    }

    /**
     * updateSnakeProgress for snake `s` over a frame of `deltaTime` seconds at time
     * `now`: a snake with a body has its progress grown by multiplier x base speed x
     * deltaTime (AddProgress) and then makes the grid moves now due (StepWhileDue);
     * one without is left alone. `steps` counts the moves, each of which takes one
     * cell off the progress (TookTurn). A snake still in play, in a game not over,
     * takes as many steps as whole cells it accrued and keeps the fraction.
     */
    method UpdateSnakeProgress(s: Snake, deltaTime: real, now: int) returns (ghost steps: nat)
      requires Valid() && (s == player || s in enemies)
      modifies this, s, player
      ensures Valid() && Progressed()
      ensures |old(s.body)| == 0 ==> steps == 0 && s.moveProgress == old(s.moveProgress)
      ensures |old(s.body)| > 0 ==> TookTurn(s, steps, deltaTime)
      ensures s.nextDir == old(s.nextDir) && (steps > 0 ==> s.direction == old(s.nextDir))
      ensures steps == 0 ==> s.body == old(s.body) && s.direction == old(s.direction)
      ensures s != player ==> player.Shape() == old(player.Shape())
      ensures s.isPlayer && !isOver ==> (steps > 0 ==> Clear(s, enemies)) && enemies == old(enemies)
    {
      steps := 0;
      if |s.body| == 0 {
        return;
      }
      var moveAmount := s.speedFactor * speed * deltaTime;
      AddProgress(s, moveAmount);
      steps := StepWhileDue(s, now);
    }

    /**
     * The grid-move loop of updateSnakeProgress: while a whole cell of progress is
     * due, one cell is used up and one Advance made, until the snake's turn ends.
     * `steps` counts the Advances. A snake still in play, in a game not over, has
     * made as many as it had whole cells (none below one) and keeps the fraction.
     */
    method StepWhileDue(s: Snake, now: int) returns (ghost steps: nat)
      requires Valid() && (s == player || s in enemies)
      modifies this, s, player
      ensures Valid() && Progressed()
      ensures s.moveProgress == old(s.moveProgress) - steps as real
      ensures !isOver && (s.isPlayer || s in enemies) ==>
        s.moveProgress < 1.0 && steps == WholeCells(old(s.moveProgress))
      ensures s.nextDir == old(s.nextDir) && (steps > 0 ==> s.direction == old(s.nextDir))
      ensures steps == 0 ==> s.body == old(s.body) && s.direction == old(s.direction)
      ensures s != player ==> player.Shape() == old(player.Shape())
      ensures s.isPlayer && !isOver ==> (steps > 0 ==> Clear(s, enemies)) && enemies == old(enemies)
    {
      steps := 0;
      while s.moveProgress >= 1.0
        invariant Valid() && (s == player || s in enemies) && Progressed()
        invariant s.moveProgress == old(s.moveProgress) - steps as real
        invariant steps > 0 ==> s.moveProgress >= 0.0
        invariant s.nextDir == old(s.nextDir) && (steps > 0 ==> s.direction == old(s.nextDir))
        invariant steps == 0 ==> s.body == old(s.body) && s.direction == old(s.direction)
        invariant s != player ==> player.Shape() == old(player.Shape())
        invariant s.isPlayer && !isOver ==> (steps > 0 ==> Clear(s, enemies)) && enemies == old(enemies)
        decreases s.moveProgress.Floor
      {
        AddProgress(s, -1.0);
        steps := steps + 1;
        var stop := Advance(s, now);
        if stop {
          return;
        }
      }
      assert steps as real <= old(s.moveProgress) < steps as real + 1.0 || (steps == 0 && old(s.moveProgress) < 1.0);
    }

    /**
     * The enemy part of Update: walks the enemy list as it was when the walk began,
     * from the back, and gives each enemy its turn (EnemyTurn), stopping as soon as
     * the game is over. `turns` maps each enemy that took a turn to its grid steps: a
     * single turn's worth of progress (TookTurn), so no enemy moves twice, and an
     * enemy without a turn is untouched. When the game is not over, every enemy
     * still listed has taken its turn. Without a turn, the game-over flag is as it was.
     */
    method UpdateEnemies(deltaTime: real, now: int) returns (ghost turns: map<Snake, nat>)
      requires Valid()
      modifies this, player, enemies
      ensures Valid() && Progressed()
      ensures player.Shape() == old(player.Shape())
      ensures forall e | e in turns :: e in old(enemies) && TookTurn(e, turns[e], deltaTime)
      ensures forall e | e in old(enemies) && e !in turns :: unchanged(e)
      ensures !isOver ==> forall e | e in old(enemies) && e in enemies :: e in turns
      ensures turns == map[] ==> isOver == old(isOver)
    {
      turns := map[];
      var snapshot := enemies;
      ghost var base := map e | e in snapshot :: Accrued(e, speed, deltaTime);
      assert forall e | e in old(enemies) :: e in base && base[e] == old(Accrued(e, speed, deltaTime));
      var i := |snapshot| - 1;
      while i >= 0
        invariant -1 <= i < |snapshot| && Distinct(snapshot) && snapshot == old(enemies)
        invariant Valid() && Progressed() && player.Shape() == old(player.Shape())
        invariant forall e | e in turns :: e in snapshot[i + 1..] && e in base && Moved(e, base[e], turns[e])
        invariant forall e | e in snapshot[i + 1..] && e in enemies :: e in turns
        invariant forall e | e in snapshot && e !in turns :: unchanged(e)
        invariant turns == map[] ==> isOver == old(isOver)
      {
        assert snapshot[i] !in turns by {
          forall k | i + 1 <= k < |snapshot| ensures snapshot[k] != snapshot[i] { }
        }
        assert snapshot[i] in old(enemies) && unchanged(snapshot[i]);
        var took;
        took, turns := WalkStep(snapshot, i, deltaTime, now, base, turns);
        if took && isOver {
          break;
        }
        i := i - 1;
      }
      forall e | e in turns
        ensures e in old(enemies) && TookTurn(e, turns[e], deltaTime)
      {
        assert e in snapshot;
        assert base[e] == old(Accrued(e, speed, deltaTime));
      }
    }

    /**
     * One step of the walk of UpdateEnemies over `walk`, the enemy list as it was when
     * the walk began: the turn (EnemyTurn) of the enemy at index `i`, recorded in the
     * walk's `turns` when it took one. `base` holds each enemy's accrued progress for
     * the frame. The walk's invariants carry over from index `i + 1` to index `i`:
     * every recorded turn is still as it was, every enemy still listed from `i` on has
     * had its turn, and an enemy without a turn is untouched.
     */
    method WalkStep(walk: seq<Snake>, i: int, deltaTime: real, now: int, ghost base: map<Snake, real>,
                    ghost turns: map<Snake, nat>)
      returns (took: bool, ghost turns': map<Snake, nat>)
      requires Valid() && 0 <= i < |walk| && Distinct(walk)
      requires forall e | e in walk :: !e.isPlayer
      requires forall e | e in turns :: e in walk[i + 1..] && e in base && Moved(e, base[e], turns[e])
      requires forall e | e in walk[i + 1..] && e in enemies :: e in turns
      requires walk[i] in base && base[walk[i]] == Accrued(walk[i], speed, deltaTime)
      modifies this, player, walk[i]
      ensures Valid() && Progressed() && player.Shape() == old(player.Shape())
      ensures took == old(walk[i] in enemies)
      ensures !took ==> unchanged(this) && turns' == turns
      ensures took ==> walk[i] in turns'
      ensures forall e | e in turns' :: e in walk[i..] && e in base && Moved(e, base[e], turns'[e])
      ensures forall e | e in walk[i..] && e in enemies :: e in turns'
      ensures forall e | e in walk && e !in turns' :: e !in turns && unchanged(e)
    {
      var enemy := walk[i];
      assert enemy !in turns by {
        forall k | i + 1 <= k < |walk| ensures walk[k] != enemy { }
      }
      ghost var steps;
      took, steps := EnemyTurn(enemy, deltaTime, now);
      turns' := if took then turns[enemy := steps] else turns;
      assert forall e | e in walk[i..] && e in enemies :: e == enemy || e in walk[i + 1..];
    }

    /**
     * One enemy's turn in Update: an enemy still listed steers towards the first food
     * item and then makes its progress, `steps` grid steps; a removed one is skipped
     * and nothing changes. No turn changes the player's snake beyond its timer.
     */
    method EnemyTurn(enemy: Snake, deltaTime: real, now: int) returns (took: bool, ghost steps: nat)
      requires Valid() && !enemy.isPlayer
      modifies this, player, enemy
      ensures Valid() && Progressed()
      ensures took == old(enemy in enemies)
      ensures !took ==> unchanged(this) && unchanged(player) && unchanged(enemy) && steps == 0
      ensures player.Shape() == old(player.Shape())
      ensures took ==>
        enemy.nextDir == if |old(foodItems)| > 0 then EnemyDesiredDir(old(foodItems)[0].pos, old(enemy.body)[0], old(enemy.direction))
                         else old(enemy.direction)
      ensures took ==> TookTurn(enemy, steps, deltaTime)
    {
      steps := 0;
      took := IsSnakeAlive(enemy);
      if took {
        UpdateEnemyAI(enemy);
        steps := UpdateSnakeProgress(enemy, deltaTime, now);
      }
    }

    /**
     * The timed spawns of Update at time `now`: a food item once its time has passed,
     * and an enemy once its time has passed, each time rescheduled from `now`. Each
     * spawn appends at most one entry, placed clear of what was there before, and
     * nothing else changes.
     */
    method SpawnDue(now: int)
      requires Valid()
      modifies this
      ensures Valid()
      ensures player == old(player) && isOver == old(isOver)
      ensures Status() == old(Status()).(nextFoodSpawnTime := nextFoodSpawnTime, nextEnemySpawnTime := nextEnemySpawnTime)
      ensures nextFoodSpawnTime == if now > old(nextFoodSpawnTime) then now + FoodSpawnInterval else old(nextFoodSpawnTime)
      ensures nextEnemySpawnTime == if now > old(nextEnemySpawnTime) then now + EnemySpawnInterval else old(nextEnemySpawnTime)
      ensures now <= old(nextFoodSpawnTime) ==> foodItems == old(foodItems)
      ensures foodItems == old(foodItems) ||
        (|foodItems| == old(|foodItems|) + 1 && foodItems[..old(|foodItems|)] == old(foodItems) &&
         var f := foodItems[old(|foodItems|)];
         FoodOk(f) && old(OffSnakes(f.pos)) && f.pos !in FoodCells(old(foodItems)))
      ensures now <= old(nextEnemySpawnTime) ==> enemies == old(enemies)
      ensures enemies == old(enemies) ||
        (old(|enemies|) < MaxEnemySnakes && |enemies| == old(|enemies|) + 1 &&
         enemies[..old(|enemies|)] == old(enemies) &&
         var e := enemies[old(|enemies|)];
         fresh(e) && Placeable(e.body, old(Occupied()) + FoodCells(foodItems)) &&
         e.Shape() == SnakeShape(e.body, e.body, DirLeft, DirLeft, 1.0, 0.0))
    {
      if now > nextFoodSpawnTime {
        SpawnFoodItem();
        nextFoodSpawnTime := now + FoodSpawnInterval;
      }
      ghost var before := Occupied();
      assert old(Occupied()) <= before;
      if now > nextEnemySpawnTime {
        SpawnEnemyIfPossible();
        nextEnemySpawnTime := now + EnemySpawnInterval;
      }
    }

    /**
     * The first part of a running frame of Update: the timed spawns (SpawnDue), then
     * the player's progress (UpdateSnakeProgress). The enemies listed before are
     * untouched; an enemy listed now that was not is new and at rest. A player that
     * stepped in a game still running has its head clear of the walls, of its own
     * body and of every enemy listed before.
     */
    method SpawnAndMovePlayer(deltaTime: real, now: int) returns (ghost playerSteps: nat)
      requires Valid() && !isOver
      modifies this, player
      ensures Valid()
      ensures player == old(player) && score >= old(score) && isPaused == old(isPaused)
      ensures nextFoodSpawnTime == if now > old(nextFoodSpawnTime) then now + FoodSpawnInterval else old(nextFoodSpawnTime)
      ensures nextEnemySpawnTime == if now > old(nextEnemySpawnTime) then now + EnemySpawnInterval else old(nextEnemySpawnTime)
      ensures TookTurn(player, playerSteps, deltaTime) && player.nextDir == old(player.nextDir)
      ensures playerSteps > 0 ==> player.direction == old(player.nextDir)
      ensures playerSteps == 0 ==> player.body == old(player.body)
      ensures forall e | e in old(enemies) :: unchanged(e)
      ensures forall e | e in enemies && e !in old(enemies) ::
        fresh(e) && e.Shape() == SnakeShape(e.body, e.body, DirLeft, DirLeft, 1.0, 0.0)
      ensures playerSteps > 0 && !isOver ==>
        !Crashes(player.body) && forall e | e in old(enemies) :: !EnemyHit(player.body[0], player, e)
    {
      SpawnDue(now);
      ghost var spawned := enemies;
      playerSteps := UpdateSnakeProgress(player, deltaTime, now);
      assert forall e | e in enemies :: e in spawned;
      if playerSteps > 0 && !isOver {
        forall e | e in old(enemies) ensures !EnemyHit(player.body[0], player, e) {
          var j :| 0 <= j < |old(enemies)| && old(enemies)[j] == e;
          assert enemies[j] == e;
        }
      }
    }

    /**
     * Update over a frame of `deltaTime` seconds at time `now`. While over or paused,
     * nothing changes, not the session and not any snake. Otherwise the due spawns
     * are made, then the player takes its turn (`playerSteps` grid steps), and unless
     * that ended the game the enemies take theirs (UpdateEnemies), `turns` mapping
     * each enemy that moved to its steps. A player step that crashes or meets an
     * enemy listed before the frame ends the game, and then no enemy moves. An enemy
     * spawned this frame starts at rest, and stays so without a turn.
     */
    method Update(deltaTime: real, now: int)
      returns (ghost playerSteps: nat, ghost turns: map<Snake, nat>)
      requires Valid()
      modifies this, player, enemies
      ensures Valid()
      ensures old(isOver || isPaused) ==>
        && unchanged(this) && unchanged(player) && (forall e | e in old(enemies) :: unchanged(e))
        && playerSteps == 0 && turns == map[]
      ensures player == old(player) && score >= old(score) && (old(isOver) ==> isOver)
      ensures forall e | e in enemies :: e in old(enemies) || fresh(e)
      ensures !old(isOver || isPaused) ==>
        nextFoodSpawnTime == (if now > old(nextFoodSpawnTime) then now + FoodSpawnInterval else old(nextFoodSpawnTime)) &&
        nextEnemySpawnTime == (if now > old(nextEnemySpawnTime) then now + EnemySpawnInterval else old(nextEnemySpawnTime))
      ensures !old(isOver || isPaused) ==>
        && TookTurn(player, playerSteps, deltaTime)
        && player.nextDir == old(player.nextDir)
        && (playerSteps > 0 ==> player.direction == old(player.nextDir))
        && (playerSteps == 0 ==> player.body == old(player.body))
      ensures forall e | e in turns && e in old(enemies) :: TookTurn(e, turns[e], deltaTime)
      ensures forall e | e in turns && e !in old(enemies) ::
        && fresh(e)
        && e.moveProgress == speed * deltaTime - turns[e] as real
        && (!isOver && e in enemies ==> e.moveProgress < 1.0 && turns[e] == WholeCells(speed * deltaTime))
      ensures forall e | e in old(enemies) && e !in turns :: unchanged(e)
      ensures forall e | e in enemies && e !in old(enemies) && e !in turns ::
        e.Shape() == SnakeShape(e.body, e.body, DirLeft, DirLeft, 1.0, 0.0)
      ensures var head := player.body[0];
        !old(isOver || isPaused) && playerSteps > 0 &&
        (Crashes(player.body) || exists e | e in old(enemies) :: old(EnemyHit(head, player, e))) ==>
          turns == map[]
      ensures !old(isOver || isPaused) && !isOver ==> forall e | e in enemies :: e in turns
    {
      playerSteps, turns := 0, map[];
      if isOver || isPaused {
        return;
      }
      playerSteps := SpawnAndMovePlayer(deltaTime, now);
      if isOver {
        return;
      }
      assert fresh(set e | e in enemies && e !in old(enemies));
      ghost var head := player.body[0];
      if playerSteps > 0 {
        forall e | e in old(enemies) ensures !old(EnemyHit(head, player, e)) {
          assert e.body == old(e.body);
        }
      }
      ghost var before := enemies;
      label walk:
      turns := UpdateEnemies(deltaTime, now);
      forall e | e in turns && e in old(enemies)
        ensures TookTurn(e, turns[e], deltaTime)
      {
        assert old@walk(Accrued(e, speed, deltaTime)) == old(Accrued(e, speed, deltaTime));
      }
      forall e | e in turns && e !in old(enemies)
        ensures fresh(e) && e.moveProgress == speed * deltaTime - turns[e] as real
        ensures !isOver && e in enemies ==> e.moveProgress < 1.0 && turns[e] == WholeCells(speed * deltaTime)
      {
        assert e in before;
        assert old@walk(Accrued(e, speed, deltaTime)) == speed * deltaTime;
      }
    }
  }
}

=== FILE: snake.dfy ===
/**
 * A snake of the session engine (game.go's Snake): its body and the body of the
 * previous completed step, its committed and buffered directions, the speed
 * multiplier of a food effect together with the timer that ends it, and the
 * fractional progress towards its next grid step.
 *
 * Time is an integer count of nanoseconds, Go's time.Duration unit; the zero
 * time.Time is `ZeroTime`.
 */
module Snakes {
  import opened Grid

  const Millisecond: int := 1_000_000
  const Second: int := 1_000_000_000
  /** The zero time.Time, which the snake uses for "no speed effect". */
  const ZeroTime: int := 0

  const InitialSnakeLen: int := 3
  const SpeedUpFactor: real := 1.5
  const SlowDownFactor: real := 0.6

  /**
   * The snake's speed-effect timer, a *time.Timer created by time.AfterFunc:
   * nil, running until `fireAt`, or stopped (still non-nil, will not fire until Reset).
   */
  datatype SpeedTimer = NoTimer | Armed(fireAt: int) | Stopped

  /** Timer.Stop on a non-nil timer; nil stays nil. */
  function StopTimer(t: SpeedTimer): SpeedTimer
  {
    if t.NoTimer? then NoTimer else Stopped
  }

  /** Whether `head` lies on a body segment other than the head itself. */
  predicate HitsBody(head: Position, body: seq<Position>)
  {
    exists i | 1 <= i < |body| :: body[i] == head
  }

  /** The scan behind every "head on a body" test: a hit exactly when HitsBody holds. */
  method ScanBody(head: Position, body: seq<Position>) returns (hit: bool)
    ensures hit == HitsBody(head, body)
  {
    var i := 1;
    while i < |body|
      invariant 1 <= i || |body| == 0
      invariant forall k | 1 <= k < i && k < |body| :: body[k] != head
    {
      if head == body[i] {
        return true;
      }
      i := i + 1;
    }
    return false;
  }

  /** A body after grow: its tail segment duplicated. */
  function Grown(body: seq<Position>): seq<Position>
    requires |body| > 0
  {
    body + [body[|body| - 1]]
  }

  /** Everything a snake holds except its speed timer and the timer's end time. */
  datatype SnakeShape = SnakeShape(body: seq<Position>, prevBody: seq<Position>, direction: Direction,
                              nextDir: Direction, speedFactor: real, moveProgress: real)

  predicate KnownFactor(f: real)
  {
    f == 1.0 || f == SpeedUpFactor || f == SlowDownFactor
  }

  class Snake {
    var body: seq<Position>
    /** The body as it was before the last completed step. */
    var prevBody: seq<Position>
    var direction: Direction
    /** The buffered direction the next step commits. */
    var nextDir: Direction
    var speedFactor: real
    var speedTimer: SpeedTimer
    var speedEffectEndTime: int
    const isPlayer: bool
    /** How far into the current grid step, in cells. */
    var moveProgress: real

    /** A new snake at rest: previous body equal to the body, no speed effect. */
    constructor (body: seq<Position>, dir: Direction, isPlayer: bool)
      ensures this.body == body && prevBody == body && direction == dir && nextDir == dir
      ensures speedFactor == 1.0 && speedTimer == NoTimer && speedEffectEndTime == ZeroTime
      ensures this.isPlayer == isPlayer && moveProgress == 0.0
    {
      this.body := body;
      prevBody := body;
      direction := dir;
      nextDir := dir;
      speedFactor := 1.0;
      speedTimer := NoTimer;
      speedEffectEndTime := ZeroTime;
      this.isPlayer := isPlayer;
      moveProgress := 0.0;
    }

    /**
     * What holds of every snake in play: at least its initial length, a previous body
     * of the same length, one of the three speed multipliers, and a buffered
     * direction that never reverses the committed one.
     */
    ghost predicate Ok()
      reads this
    {
      && |body| >= InitialSnakeLen && |prevBody| == |body|
      && KnownFactor(speedFactor)
      && !IsReverse(nextDir, direction)
    }

    function Shape(): SnakeShape
      reads this
    {
      SnakeShape(body, prevBody, direction, nextDir, speedFactor, moveProgress)
    }

    /** grow: duplicates the tail segment in both Body and PrevBody; an empty body is left alone. */
    method Grow()
      modifies this
      ensures |old(body)| == 0 ==> body == old(body) && prevBody == old(prevBody)
      ensures |old(body)| > 0 ==> body == old(body) + [old(body)[|old(body)| - 1]]
      ensures |old(body)| > 0 && |old(prevBody)| > 0 ==>
        prevBody == old(prevBody) + [old(prevBody)[|old(prevBody)| - 1]]
      ensures |old(body)| > 0 && |old(prevBody)| == 0 ==> prevBody == [old(body)[|old(body)| - 1]]
      ensures direction == old(direction) && nextDir == old(nextDir) && speedFactor == old(speedFactor)
      ensures speedTimer == old(speedTimer) && speedEffectEndTime == old(speedEffectEndTime)
      ensures moveProgress == old(moveProgress)
    {
      if |body| == 0 {
        return;
      }
      var tail := body[|body| - 1];
      body := body + [tail];
      if |prevBody| > 0 {
        var prevTail := prevBody[|prevBody| - 1];
        prevBody := prevBody + [prevTail];
      } else {
        prevBody := prevBody + [tail];
      }
    }

    /**
     * applySpeedBoost: installs the multiplier and (re)arms the timer that ends it
     * `duration` after `now`; a running timer is replaced and can no longer fire.
     */
    method ApplySpeedBoost(factor: real, duration: int, now: int)
      modifies this
      ensures speedFactor == factor && speedEffectEndTime == now + duration
      ensures speedTimer == Armed(now + duration)
      ensures body == old(body) && prevBody == old(prevBody)
      ensures direction == old(direction) && nextDir == old(nextDir) && moveProgress == old(moveProgress)
    {
      speedTimer := StopTimer(speedTimer);
      speedFactor := factor;
      var endTime := now + duration;
      speedEffectEndTime := endTime;
      speedTimer := Armed(endTime);
    }

    /**
     * The AfterFunc callback of applySpeedBoost, run by the timer at time `now`:
     * when the timer is armed and due, the multiplier returns to 1 and the timer
     * and end time are cleared; otherwise nothing happens.
     */
    method SpeedTimerFires(now: int)
      modifies this
      ensures old(speedTimer).Armed? && now >= old(speedTimer).fireAt ==>
        speedFactor == 1.0 && speedTimer == NoTimer && speedEffectEndTime == ZeroTime
      ensures !(old(speedTimer).Armed? && now >= old(speedTimer).fireAt) ==>
        speedFactor == old(speedFactor) && speedTimer == old(speedTimer) &&
        speedEffectEndTime == old(speedEffectEndTime)
      ensures body == old(body) && prevBody == old(prevBody)
      ensures direction == old(direction) && nextDir == old(nextDir) && moveProgress == old(moveProgress)
    {
      if speedTimer.Armed? && now >= speedTimer.fireAt {
        speedFactor := 1.0;
        speedTimer := NoTimer;
        speedEffectEndTime := ZeroTime;
      }
    }

    /**
     * checkCollision: a wall hit exactly when the head is outside the grid; otherwise
     * a self hit exactly when the head lies on another body segment. Never both,
     * and neither for an empty body.
     */
    method CheckCollision(width: int, height: int) returns (hitWall: bool, hitSelf: bool)
      ensures |body| == 0 ==> !hitWall && !hitSelf
      ensures |body| > 0 ==> hitWall == !IsValid(body[0], width, height)
      ensures |body| > 0 ==> hitSelf == (IsValid(body[0], width, height) && HitsBody(body[0], body))
      ensures !(hitWall && hitSelf)
    {
      if |body| == 0 {
        return false, false;
      }
      var head := body[0];
      if head.x < 0 || head.x >= width || head.y < 0 || head.y >= height {
        return true, false;
      }
      hitSelf := ScanBody(head, body);
      hitWall := false;
    }
  }

  /**
   * A step committed with DirNone (which HandleInput accepts) keeps the head in place,
   * so the shifted body's second segment is the head: a self collision.
   */
  lemma StandStillHitsSelf(body: seq<Position>)
    requires |body| >= 2
    ensures var moved := [Shift(body[0], DirNone)] + body[..|body| - 1];
            HitsBody(moved[0], moved)
  {
    var moved := [Shift(body[0], DirNone)] + body[..|body| - 1];
    assert moved[1] == moved[0];
  }
}

=== FILE: steering.dfy ===
/**
 * The enemy snakes' steering rule: head for a target cell (the first food item),
 * preferring the horizontal axis, never choosing the reverse of the committed
 * direction.
 */
module Steering {
  import opened Grid

  /**
   * The direction updateEnemyAI buffers for a snake whose head is at `head`,
   * committed to `currentDir`, when the target is `target`: the four axis tests in
   * order, then the fallback that looks for the other axis, then the anti-reversal
   * correction. It is the greedy reference rule (the fallback and the correction
   * never change the outcome), so it never reverses the committed direction.
   */
  function EnemyDesiredDir(target: Position, head: Position, currentDir: Direction): (d: Direction)
    ensures d == GreedyDir(target, head, currentDir)
    ensures !IsReverse(d, currentDir)
  {
    var desired :=
      if target.x > head.x && currentDir != DirLeft then DirRight
      else if target.x < head.x && currentDir != DirRight then DirLeft
      else if target.y > head.y && currentDir != DirUp then DirDown
      else if target.y < head.y && currentDir != DirDown then DirUp
      else if target.y != head.y && currentDir != DirUp && currentDir != DirDown then
        (if target.y > head.y then DirDown else DirUp)
      else if target.x != head.x && currentDir != DirLeft && currentDir != DirRight then
        (if target.x > head.x then DirRight else DirLeft)
      else currentDir;
    if IsReverse(desired, currentDir) then
      (if currentDir == DirUp || currentDir == DirDown then DirLeft else DirUp)
    else desired
  }

  /** A direction that brings the head one cell nearer the target. */
  predicate Approaches(target: Position, head: Position, d: Direction)
  {
    Heuristic(Shift(head, d), target) < Heuristic(head, target)
  }

  /**
   * The reference rule: the first of right, left, down, up that approaches the
   * target without reversing; when there is none, keep going.
   */
  function GreedyDir(target: Position, head: Position, currentDir: Direction): Direction
  {
    if Approaches(target, head, DirRight) && !IsReverse(DirRight, currentDir) then DirRight
    else if Approaches(target, head, DirLeft) && !IsReverse(DirLeft, currentDir) then DirLeft
    else if Approaches(target, head, DirDown) && !IsReverse(DirDown, currentDir) then DirDown
    else if Approaches(target, head, DirUp) && !IsReverse(DirUp, currentDir) then DirUp
    else currentDir
  }

  /**
   * The chosen direction approaches the target exactly when some non-reversing
   * direction does; otherwise the snake keeps its committed direction.
   */
  lemma EnemyApproachesWhenPossible(target: Position, head: Position, currentDir: Direction)
    ensures var d := EnemyDesiredDir(target, head, currentDir);
      Approaches(target, head, d) <==>
        exists e: Direction :: !IsReverse(e, currentDir) && Approaches(target, head, e)
    ensures var d := EnemyDesiredDir(target, head, currentDir);
      !Approaches(target, head, d) ==> d == currentDir
  {
    if exists e: Direction :: !IsReverse(e, currentDir) && Approaches(target, head, e) {
      var e: Direction :| !IsReverse(e, currentDir) && Approaches(target, head, e);
      assert e != DirNone;
    }
  }
}

=== FILE: wrappers.dfy ===
/** The optional value used where the Go code returns a nil pointer or slice. */
module Wrappers {
  datatype Option<+T> = None | Some(value: T)
}
